=== FILE: README.md ===
# Smart desk control center, modelled in Dafny

The smart desk control center is a browser and mobile dashboard for a desk whose
microcontroller talks over a Bluetooth Low Energy serial module (HC-05 style, service
`0000ffe0-…`, characteristic `0000ffe1-…`). This project models its core:

- **The connection service** (`bluetooth_service.dfy`, module `Bluetooth`): one radio link;
  the four connection states `disconnected`, `connecting`, `connected` and `error`; a
  registry of listeners that hear every state change and every inbound payload; and the
  text commands `D_ON`, `D_OFF`, `H_ON`, `H_OFF` and `RGB:r,g,b`. The class
  `BluetoothService` keeps the service's fields. Its methods change them in place and are
  proved against:
  - `ConnectAttempt`, a function of the radio's answers;
  - `RemoveFirst`, for the registry;
  - `Broadcast`/`Fanout`, for the callbacks.
- **The desk state coordinator** (`desk_context.dfy`, module `DeskContext`): the class
  `DeskProvider` holds the mirrored connection state, the device name, the telemetry
  history, the optimistic device state and the alert list. It turns user commands into
  wire commands on the service. Pure functions specify its transitions:
  - `Target`, `SwitchDesk` and `SwitchHeater`, for the switches;
  - `ThresholdAlerts`, for the sensor alerts;
  - `WithoutId`, for clearing an alert;
  - `TickHistory` and `Latest`, for the history;
  - `OnTooLong`, for the on-time check.
- **The five cards**, one module each:
  - sensor colours, chart rows and axis labels (`temperature_humidity_card.dfy`);
  - on-timers (`desk_controls.dfy`);
  - the connect button (`bluetooth_connector.dfy`);
  - the alert list (`alerts_card.dfy`);
  - the mood-light sliders (`rgb_controller.dfy`).
- **JavaScript's text conversions** (`decimal.dfy`, module `Decimal`), each with the
  parser or join that undoes it:
  - integer to decimal text;
  - `toFixed(1)`;
  - `split` on one character;
  - `padStart`.

How foreign things enter the model:

- The radio, the clock and the telemetry source are inputs.
  - Each radio step of a connect attempt is a field of `Radio` that says whether the step
    succeeded.
  - A write's success is a `writeOk` flag.
  - The clock is an integer `now` in milliseconds.
  - Samples are values of `SensorData`.
- Temperatures and humidities are whole numbers of tenths, so 362 is 36.2 °C. This makes
  `toFixed(1)` exact.
- Listener callbacks are recorded in the service's `deliveries` log, in the order they are
  made. Writes to the characteristic are recorded in `written`.

Behaviour of the code that the model keeps as written:

- The connection service keeps the device reference after the peer drops the link. It
  only clears the characteristic.
- After a failed step past the device chooser, the chosen device also stays set.
- The characteristic stays set when starting notifications fails.
- The sample appended on reaching `connected` is not trimmed, so a history of 30 samples
  grows to 31 on a reconnect (`DeskProvider.OnConnectionStateChange`). Reconnecting does
  not reset the history.
- An alert's id is the clock reading in milliseconds of its own `addAlert` call. The
  temperature and humidity alerts of one sample come from two separate readings. They
  share an id only when both readings fall in the same millisecond, and clearing the
  temperature alert then clears the humidity alert too (`ClearTemperatureAlertOfSample`).
- The on-time checks depend only on the switch and its timestamp, not on the connection.
- Colours are sent to the desk without any range check (`RGBCommandNotClamped`).

## Model

| member | source | states |
|---|---|---|
| Decimal.NatToStringRoundTrip | src/components/DeskControls.tsx:27 | the decimal text of a natural number parses back to that number |
| Decimal.IntToStringRoundTrip | src/context/DeskContext.tsx:194 | the text of an integer, with its sign, parses back to the integer |
| Decimal.IntToStringInjective | src/context/DeskContext.tsx:194 | different clock readings give different alert ids |
| Decimal.Fixed1RoundTrip | src/context/DeskContext.tsx:180 | `toFixed(1)` of a value in tenths reads back as exactly that value |
| Decimal.SplitNoSeparator | src/components/TemperatureHumidityCard.tsx:111 | splitting text that has no separator gives the text as the one piece |
| Decimal.SplitAtFirst | src/components/TemperatureHumidityCard.tsx:111 | splitting `a + sep + b` gives `a`, then the pieces of `b` |
| Decimal.JoinSplit | src/components/TemperatureHumidityCard.tsx:111 | joining the pieces of a split with the same separator restores the text |
| Decimal.PadStart | src/components/DeskControls.tsx:27 | the result has at least the width; the original text is its suffix; every prefix character is the fill |
| Decimal.NatToString | src/components/DeskControls.tsx:27 | the text of a natural number is at least one digit, all digits, with no leading zero |
| Decimal.IntToString | src/context/DeskContext.tsx:194 | the text starts with `-` exactly for a negative number; every other character is a digit |
| Decimal.Fixed1 | src/context/DeskContext.tsx:180 | `toFixed(1)` ends in a point and one digit, and starts with `-` exactly for a negative value |
| Decimal.SplitOn | src/components/TemperatureHumidityCard.tsx:111 | at least one piece; exactly one piece when the separator does not occur; no piece contains the separator |
| Decimal.SplitFirstTwoPrefix | src/components/TemperatureHumidityCard.tsx:111 | when the separator occurs, the first two pieces joined by it are a prefix of the text |
| Bluetooth.IndexOf | src/services/BluetoothService.ts:22 | -1 exactly when the listener is absent; otherwise the position of its first occurrence |
| Bluetooth.RemoveFirst | src/services/BluetoothService.ts:21-26 | an absent listener leaves the registry unchanged; otherwise exactly one occurrence leaves the multiset |
| Bluetooth.SpliceRemovesFirst | src/services/BluetoothService.ts:22-25 | `splice(indexOf(l), 1)` removes the first occurrence and keeps the order of the rest |
| Bluetooth.RegisterThenUnregister | src/services/BluetoothService.ts:17-26 | registering a new listener and unregistering it restores the registry |
| Bluetooth.UnregisterKeepsLaterDuplicate | src/services/BluetoothService.ts:21-26 | a listener registered twice is still registered after one unregister |
| Bluetooth.Broadcast | src/services/BluetoothService.ts:30-32 | one callback per registered listener, in registration order, each with the same event |
| Bluetooth.FanoutOne | src/services/BluetoothService.ts:28-33 | the callbacks of one announcement are one broadcast |
| Bluetooth.FanoutTwo | src/services/BluetoothService.ts:28-33 | the callbacks of two announcements are the two broadcasts, in order |
| Bluetooth.BroadcastCount | src/services/BluetoothService.ts:36-38 | a listener hears each broadcast once per registration |
| Bluetooth.LinkSteps | src/services/BluetoothService.ts:85-105 | the steps after the chooser pass exactly when GATT, service, characteristic and notifications all succeed; the state is then `connected`, else `error`; the `ffe1` characteristic is held once found, the earlier one otherwise |
| Bluetooth.ConnectAttempt | src/services/BluetoothService.ts:53-111 | an attempt ends in `connected` (exactly when it passes) or `error`; it announces its final state last; it announces `connecting` first exactly when Bluetooth exists |
| Bluetooth.ConnectSucceedsIff | src/services/BluetoothService.ts:53-111 | an attempt succeeds exactly when every radio step does; it then announces `connecting` then `connected` and holds the chosen device and the `ffe1` characteristic |
| Bluetooth.ConnectFailureEndsInError | src/services/BluetoothService.ts:106-110 | every failure ends in `error` and announces it last; `connecting` is announced first exactly when Bluetooth exists; without Bluetooth only `error` is announced |
| Bluetooth.ConnectKeepsChosenDevice | src/services/BluetoothService.ts:66-77 | the chosen device is kept even when a later step fails; a rejected chooser leaves the earlier device |
| Bluetooth.DeskCommand | src/services/BluetoothService.ts:137-139 | `D_ON`/`D_OFF` reads back as the desk command with that switch value |
| Bluetooth.HeaterCommand | src/services/BluetoothService.ts:141-143 | `H_ON`/`H_OFF` reads back as the heater command with that switch value |
| Bluetooth.RGBCommand | src/services/BluetoothService.ts:145-147 | the colour text starts with `RGB:` and has no space |
| Bluetooth.LightReadsBack | src/services/BluetoothService.ts:145-147 | `RGB:r,g,b` reads back as the colour command with those three channels, whatever their sign or size |
| Bluetooth.Encode | src/services/BluetoothService.ts:137-147 | no command text contains a space |
| Bluetooth.DecodeEncode | src/services/BluetoothService.ts:137-147 | every desk, heater and colour command text reads back as its command |
| Bluetooth.EncodeInjective | src/services/BluetoothService.ts:137-147 | different commands have different texts |
| Bluetooth.RGBCommandNotClamped | src/services/BluetoothService.ts:145-147 | out-of-range channels are sent literally (`RGB:300,-5,10`) |
| Bluetooth.BluetoothService.constructor | src/services/BluetoothService.ts:10-13 | starts disconnected, with no device, no characteristic and no listeners |
| Bluetooth.BluetoothService.RegisterListener | src/services/BluetoothService.ts:17-19 | the listener is appended to the registry |
| Bluetooth.BluetoothService.UnregisterListener | src/services/BluetoothService.ts:21-26 | the registry loses the first occurrence of the listener |
| Bluetooth.BluetoothService.NotifyConnectionStateChange | src/services/BluetoothService.ts:28-33 | the state is stored; every listener, in order, is told the state and the current device |
| Bluetooth.BluetoothService.NotifyDataReceived | src/services/BluetoothService.ts:35-39 | every listener, in order, receives the payload |
| Bluetooth.BluetoothService.IsConnected | src/services/BluetoothService.ts:41-43 | true exactly in state `connected` |
| Bluetooth.BluetoothService.Connect | src/services/BluetoothService.ts:53-111 | does nothing when connected; otherwise the device, the characteristic, the state, the outcome and the callbacks are those of `ConnectAttempt` |
| Bluetooth.BluetoothService.RunAttempt | src/services/BluetoothService.ts:59-110 | a connect attempt from a state other than `connected` leaves the device, characteristic and state of `ConnectAttempt`, and appends the callbacks of its announcements |
| Bluetooth.BluetoothService.ChooseAndLink | src/services/BluetoothService.ts:63-110 | with Bluetooth present: `connecting` is announced with the earlier device; a rejected chooser (the user cancels) fails, labelled `NoDeviceSelected`, with the device and characteristic unchanged and `error` announced; otherwise the chosen device is held and the link steps decide the characteristic, the state, the outcome and the final announcement |
| Bluetooth.BluetoothService.LinkChosen | src/services/BluetoothService.ts:66-105 | the chosen device is held from then on; the characteristic, the state and the outcome are those of `LinkSteps`, and the final state is announced with that device |
| Bluetooth.BluetoothService.OpenLink | src/services/BluetoothService.ts:85-105 | the steps after the chooser fail at the first failing step; the characteristic is stored once found; the final state is announced |
| Bluetooth.BluetoothService.OnGattServerDisconnected | src/services/BluetoothService.ts:80-83 | a peer disconnect clears the characteristic, announces `disconnected` and keeps the device |
| Bluetooth.BluetoothService.OnCharacteristicValueChanged | src/services/BluetoothService.ts:97-103 | a notification with a value goes to every listener; one without a value goes nowhere |
| Bluetooth.BluetoothService.Disconnect | src/services/BluetoothService.ts:113-120 | clears the device and the characteristic and always announces `disconnected` |
| Bluetooth.BluetoothService.SendData | src/services/BluetoothService.ts:122-134 | fails as not connected exactly when no characteristic is held or the state is not `connected`; the payload is written only on success |
| Bluetooth.BluetoothService.SendDeskCommand | src/services/BluetoothService.ts:137-139 | writes `D_ON` or `D_OFF` on success, nothing otherwise |
| Bluetooth.BluetoothService.SendHeaterCommand | src/services/BluetoothService.ts:141-143 | writes `H_ON` or `H_OFF` on success, nothing otherwise |
| Bluetooth.BluetoothService.SendRGBCommand | src/services/BluetoothService.ts:145-147 | writes `RGB:r,g,b` on success, nothing otherwise |
| DeskContext.InitialStateMatches | src/context/DeskContext.tsx:66-72 | both switches start off without timestamps |
| DeskContext.Target | src/context/DeskContext.tsx:223 | an explicit argument wins; without one the flag is inverted |
| DeskContext.SwitchDesk | src/context/DeskContext.tsx:226-230 | sets the desk flag, stamps it when on and clears it when off; the heater and the colour are untouched; the timestamp-iff-on invariant is kept |
| DeskContext.SwitchHeater | src/context/DeskContext.tsx:242-246 | the same for the heater |
| DeskContext.ToggleDeskTwice | src/context/DeskContext.tsx:222-230 | two argument-less toggles restore the flag, and the whole state when the desk was off |
| DeskContext.NewAlert | src/context/DeskContext.tsx:192-199 | a new alert is unseen, has the given kind and message, and is stamped with the clock reading |
| DeskContext.NewAlertIdReadsBack | src/context/DeskContext.tsx:194 | the id reads back as the clock reading, so alerts made at different milliseconds have different ids |
| DeskContext.ThresholdAlertsSpec | src/context/DeskContext.tsx:176-207 | a temperature alert exactly above 35 °C, a humidity alert exactly below 30 %RH, nothing else; each unseen, carrying the reading in its message, stamped and identified by the clock reading of its own `addAlert` call; when both fire the humidity alert comes first in the list |
| DeskContext.HighTemperatureScenario | src/context/DeskContext.tsx:177-181 | a 36.2 °C sample raises exactly one alert, whose message shows "36.2°C" |
| DeskContext.WithoutId | src/context/DeskContext.tsx:267-269 | no surviving alert has the id, and the list never grows |
| DeskContext.WithoutIdSpec | src/context/DeskContext.tsx:267-269 | no alert with the id survives; every other alert does; nothing new appears |
| DeskContext.WithoutIdAppend | src/context/DeskContext.tsx:268 | clearing distributes over concatenation, so the order of survivors is kept |
| DeskContext.WithoutIdIdempotent | src/context/DeskContext.tsx:267-269 | clearing twice by the same id is clearing once |
| DeskContext.ClearTemperatureAlertOfSample | src/context/DeskContext.tsx:176-207 | when one sample raises both alerts, clearing (`clearAlert`, lines 267-269) the temperature alert's id removes the humidity alert too exactly when both clock readings are equal; older alerts are filtered as usual |
| DeskContext.KeepLast | src/context/DeskContext.tsx:90 | `slice(-29)` keeps the last 29 samples, or all of them when there are fewer |
| DeskContext.TickHistory | src/context/DeskContext.tsx:88-92 | a tick ends with the new sample, after the most recent earlier samples: all of them when there are fewer than 29, otherwise exactly the last 29, so the history holds at most 30 |
| DeskContext.TickEvictsOldest | src/context/DeskContext.tsx:90 | on a history of 30, a tick drops the oldest sample |
| DeskContext.Latest | src/context/DeskContext.tsx:275 | no latest sample exactly when the history is empty; otherwise the last sample |
| DeskContext.LatestAfterTick | src/context/DeskContext.tsx:275 | after a tick the latest sample is the one just added |
| DeskContext.OnTooLong | src/context/DeskContext.tsx:106-116 | the minute-based check fires exactly when the switch is on with a timestamp at least 1 200 000 ms old |
| DeskContext.TimeoutEveryCheckFromMinuteTwenty | src/context/DeskContext.tsx:101-137 | checked every minute, the timeout fires at every check from minute 20 on and at none before |
| DeskContext.NameOf | src/context/DeskContext.tsx:144 | a missing or empty device name reads as no name |
| DeskContext.DeskProvider.constructor | src/context/DeskContext.tsx:63-73 | starts disconnected, with no name, no samples, no alerts, and the initial device state with colour (128, 0, 255) |
| DeskContext.DeskProvider.Mount | src/context/DeskContext.tsx:161 | the provider's listener joins the service's registry |
| DeskContext.DeskProvider.Unmount | src/context/DeskContext.tsx:163-165 | the provider's listener leaves the registry |
| DeskContext.DeskProvider.AddAlert | src/context/DeskContext.tsx:192-207 | the new alert goes in front of the list |
| DeskContext.DeskProvider.CheckForAlerts | src/context/DeskContext.tsx:176-190 | the sample's threshold alerts, made with the two `addAlert` clock readings, are prepended to the list |
| DeskContext.DeskProvider.ClearAlert | src/context/DeskContext.tsx:267-269 | the list is filtered by id |
| DeskContext.DeskProvider.ClearAllAlerts | src/context/DeskContext.tsx:271-273 | the list is emptied |
| DeskContext.DeskProvider.OnConnectionStateChange | src/context/DeskContext.tsx:76-98 | mirrors the state and the device name; on a change to `connected` it appends the first sample untrimmed (a history of 30 becomes 31) and prepends its threshold alerts; otherwise neither changes |
| DeskContext.DeskProvider.TelemetryTick | src/context/DeskContext.tsx:88-92 | the history is ticked with the sample and the sample's threshold alerts are prepended |
| DeskContext.DeskProvider.CheckDeskOnTime | src/context/DeskContext.tsx:105-117 | prepends the desk timeout alert exactly when the desk has been on for 20 minutes or more |
| DeskContext.DeskProvider.CheckHeaterOnTime | src/context/DeskContext.tsx:119-131 | the same for the heater |
| DeskContext.DeskProvider.ToggleDesk | src/context/DeskContext.tsx:222-236 | the target command is written and the desk switched exactly when the send succeeds; otherwise nothing changes; the timestamp invariant is kept |
| DeskContext.DeskProvider.ToggleHeater | src/context/DeskContext.tsx:238-252 | the same for the heater |
| DeskContext.DeskProvider.SetRGBColor | src/context/DeskContext.tsx:254-265 | the colour command is written and the colour stored exactly when the send succeeds |
| DeskContext.DeskProvider.Connect | src/context/DeskContext.tsx:209-216 | when the service is connected nothing changes; otherwise the service's device, characteristic, state and callbacks are those of `ConnectAttempt`; a failure is swallowed |
| DeskContext.DeskProvider.Disconnect | src/context/DeskContext.tsx:218-220 | the service disconnects and announces `disconnected` |
| TemperatureHumidityCard.TemperatureColor | src/components/TemperatureHumidityCard.tsx:22-27 | red exactly from 35 °C, orange exactly in [30, 35), yellow exactly in [25, 30), green exactly below 25 |
| TemperatureHumidityCard.HumidityColor | src/components/TemperatureHumidityCard.tsx:29-34 | red exactly below 30 %RH, orange exactly in [30, 40), yellow exactly above 70, green exactly in [40, 70] |
| TemperatureHumidityCard.TemperatureColorMonotone | src/components/TemperatureHumidityCard.tsx:22-27 | a warmer reading never gets a cooler colour |
| TemperatureHumidityCard.ReadingColors | src/components/TemperatureHumidityCard.tsx:60-77 | the icons are muted exactly when there is no reading; otherwise the thermometer takes the temperature band and the droplet the humidity band of the latest reading |
| TemperatureHumidityCard.TemperatureText | src/components/TemperatureHumidityCard.tsx:66-70 | "No data" without a reading; otherwise the text ends in "°C" and its figure reads back as the reading |
| TemperatureHumidityCard.HumidityText | src/components/TemperatureHumidityCard.tsx:80-84 | "No data" without a reading; otherwise the text ends in "%" and its figure reads back as the reading |
| TemperatureHumidityCard.FormatChartData | src/components/TemperatureHumidityCard.tsx:14-20 | one row per sample, in order, with the sample's readings and its time label |
| TemperatureHumidityCard.TickFormatter | src/components/TemperatureHumidityCard.tsx:109-113 | a label with a `:` is a prefix of the time text, so it only ever cuts the text short |
| TemperatureHumidityCard.TickFormatterDropsSeconds | src/components/TemperatureHumidityCard.tsx:109-113 | a label of three or more fields, such as "h:m:s", becomes its first two fields joined by `:`, whatever follows the second `:` |
| TemperatureHumidityCard.TickFormatterTwoFields | src/components/TemperatureHumidityCard.tsx:109-113 | a label of exactly two fields is kept unchanged |
| TemperatureHumidityCard.TickFormatterWithoutColon | src/components/TemperatureHumidityCard.tsx:109-113 | a label without `:` gets ":undefined" appended |
| TemperatureHumidityCard.ChartAreaFor | src/components/TemperatureHumidityCard.tsx:89-159 | the chart is drawn exactly when connected with data; otherwise the hint depends only on the connection |
| TemperatureHumidityCard.YDomain | src/components/TemperatureHumidityCard.tsx:117 | temperature axis 15 to 40, humidity axis 20 to 80 |
| DeskControls.JsRemainder | src/components/DeskControls.tsx:26 | JavaScript's `%`: the Euclidean remainder for a non-negative dividend; for a negative one the negated remainder of its magnitude, in (-b, 0] |
| DeskControls.Minutes | src/components/DeskControls.tsx:25 | `Math.floor(diff / 60000)`: the whole minutes m with m·60000 ≤ diff < (m+1)·60000, also for a negative difference |
| DeskControls.Seconds | src/components/DeskControls.tsx:26 | the seconds lie in 0..59 for a non-negative difference and in -60..0 for a negative one |
| DeskControls.FormatElapsed | src/components/DeskControls.tsx:24-27 | for a non-negative difference the text has at least four characters and the colon sits just before the last two |
| DeskControls.ElapsedParts | src/components/DeskControls.tsx:24-27 | for a non-negative difference the seconds lie in 0..59, and the minutes times 60 plus the seconds are the whole seconds elapsed |
| DeskControls.FormatElapsedReadsBack | src/components/DeskControls.tsx:24-27 | the `m:ss` text has exactly one `:`, two digits of seconds, and both parts read back as the numbers |
| DeskControls.NegativeElapsed | src/components/DeskControls.tsx:24-27 | a clock 1.5 s behind the timestamp shows "-1:-2" |
| DeskControls.TimerText | src/components/DeskControls.tsx:23-30 | a timer is shown exactly when its switch is on with a timestamp, as the elapsed `m:ss` |
| DeskControls.DeskTimers.constructor | src/components/DeskControls.tsx:14-15 | both timers start hidden |
| DeskControls.DeskTimers.Refresh | src/components/DeskControls.tsx:18-46 | while connected each timer is the `TimerText` of its own switch; while disconnected both keep their text |
| BluetoothConnector.DeriveStatus | src/components/BluetoothConnector.tsx:38-52 | "Connected" exactly when connected; "Connecting..." exactly when not connected and connecting or busy; "Error" and "Disconnected" exactly otherwise; filled button exactly when connected |
| BluetoothConnector.ButtonIcon | src/components/BluetoothConnector.tsx:62-66 | the spinner exactly while busy, the status icon otherwise |
| BluetoothConnector.ButtonLabel | src/components/BluetoothConnector.tsx:67 | "Disconnect" exactly when connected, "Connect" otherwise |
| BluetoothConnector.ShownName | src/components/BluetoothConnector.tsx:71-73 | the name is shown exactly when connected and the name is not empty |
| BluetoothConnector.ConnectorPanel.constructor | src/components/BluetoothConnector.tsx:14 | starts not busy |
| BluetoothConnector.ConnectorPanel.HandleToggleConnection | src/components/BluetoothConnector.tsx:23-36 | ends not busy; when connected it issues a disconnect while busy, and the service ends disconnected without device or characteristic after announcing `disconnected`; otherwise it issues a connect while busy, and the service is unchanged when already connected and otherwise holds the device, characteristic, state and callbacks of `ConnectAttempt` |
| AlertsCard.AlertColor | src/components/AlertsCard.tsx:65-78 | every kind has a colour class |
| AlertsCard.AlertColorDistinguishesKinds | src/components/AlertsCard.tsx:65-78 | different kinds never share a colour |
| AlertsCard.BadgeText | src/components/AlertsCard.tsx:80-93 | "Alert" exactly for custom alerts |
| AlertsCard.BadgeTextDistinguishesKinds | src/components/AlertsCard.tsx:80-93 | different kinds never share a badge text |
| AlertsCard.BadgeVariantOf | src/components/AlertsCard.tsx:95-103 | destructive exactly for temperature and humidity alerts, never the default badge |
| AlertsCard.Items | src/components/AlertsCard.tsx:54-56 | one item per alert, in order, with the alert's message, time, colour, badge and a clear action for its id |
| AlertsCard.Render | src/components/AlertsCard.tsx:14-60 | the placeholder exactly when there are no alerts; otherwise the items and the clear-all menu entry |
| AlertsCard.ClearButtonRemovesItsAlert | src/components/AlertsCard.tsx:123 | an item's clear button removes that alert and keeps every alert with another id |
| AlertsCard.MenuClearsAll | src/components/AlertsCard.tsx:44 | the menu entry empties the list, and the placeholder is drawn again |
| RGBController.WithChannel | src/components/RGBController.tsx:26 | the moved channel takes the slider's first value; the other two are kept |
| RGBController.SliderKeepsColorInRange | src/components/RGBController.tsx:59-64 | a slider value in 0..255 keeps an in-range colour in range |
| RGBController.PreviewString | src/components/RGBController.tsx:31-33 | the preview colour is a CSS `rgb(…)` text |
| RGBController.PreviewRoundTrip | src/components/RGBController.tsx:31-33 | the preview's `rgb(r, g, b)` text reads back as the local colour |
| RGBController.PreviewDiffersFromWire | src/components/RGBController.tsx:32 | the preview text has spaces; the wire command for the same colour has none |
| RGBController.RGBPanel.constructor | src/components/RGBController.tsx:13 | the local colour starts as the device colour |
| RGBController.RGBPanel.SyncFromDevice | src/components/RGBController.tsx:21-23 | the local colour follows a change of the device colour |
| RGBController.RGBPanel.HandleColorChange | src/components/RGBController.tsx:25-29 | one channel of the local colour changes, and the whole new colour is handed to the setter |

## Left out

- Web Bluetooth itself is not modelled: the chooser, GATT, service and characteristic lookup, notifications and writes. Each step's success is an input. The byte encoding and decoding (`TextEncoder`/`TextDecoder`) is the identity on text here.
- The device chooser's filters (`namePrefix: 'HC'` or the `ffe0` service) are enforced by the platform, so any chosen device is accepted.
- The `No device selected` error (src/services/BluetoothService.ts:75-77) follows a `requestDevice` that resolves to no device. The declared type `Promise<BluetoothDevice>` (src/types/web-bluetooth.d.ts:46) rules that out, so that path is not modelled. A rejected chooser, which in the code rethrows the platform's own error with the earlier device kept, is the model's `NoDeviceSelected` failure.
- `gatt.disconnect()` is a foreign call. Its only modelled effect is the service's own reset of its fields. The platform also fires `gattserverdisconnected` for it, so in the code `disconnect()` on a live link announces `disconnected` a second time through the device's handler; `BluetoothService.Disconnect` announces it once.
- Bluetooth.BluetoothService.OnGattServerDisconnected: the code adds one more `gattserverdisconnected` handler on every connect attempt that gets a device, and one more `characteristicvaluechanged` handler on every attempt that starts notifications, and never removes either. After k connects to the same device, a peer drop announces `disconnected` k times and each notification reaches the listeners k times. The model installs no handlers: this method and `Bluetooth.BluetoothService.OnCharacteristicValueChanged` each stand for one handler running once.
- Asynchrony and interleaving are not modelled. Each handler runs to completion in one step. Timers (the three-second telemetry interval, the one-minute on-time checks and the one-second card timer) are a sequence of explicit calls such as `TelemetryTick`, `CheckDeskOnTime` and `Refresh`.
- The service's listener callbacks are recorded in `deliveries`. They are not dispatched to `DeskProvider.OnConnectionStateChange`; a caller makes that call with the announced state.
- `generateMockSensorData` uses randomness. Samples are inputs.
- `parseIncomingData` only logs its argument, so incoming payloads have no effect on the coordinator.
- `getConnectionState` and `getConnectedDevice` are plain field reads; the model reads the fields directly. The provider's `isConnected` is `connectionState == Connected` and is passed to the cards as a flag.
- Toasts, console output, styling, the RGB label text and the disabled states of switches and sliders are not modelled. They are presentation only.
- `toLocaleTimeString` depends on the locale. It is the `timeLabel` parameter of `FormatChartData`, and alert times are shown as their raw timestamp.
- Lodash's `debounce` is not modelled. `HandleColorChange` records every colour handed to the debounced setter, not which calls the debounce lets through.
- Numbers are integers: readings in tenths, times in milliseconds, colour channels as integers. Fractional readings with more than one decimal, and the rounding of `toFixed` on them, are not modelled.
- The provider's `connect` drops the outcome of the service's connect, as the code swallows it; the toast that reports a failure is left out.
- Index page layout and the Capacitor configuration are not part of this model.
- Decimal.IntToString: JavaScript writes integers from 10^21 up in exponent form, and Numbers above 2^53 lose precision; the model's integers are exact, so its text is the plain decimal for every integer. Clock readings, readings in tenths and colour channels stay far below both bounds.
- DeskContext.NewAlert: the code reads the clock twice per alert, `Date.now()` for the id and `new Date()` for the timestamp; the model uses one reading for both, so id and timestamp always agree here. `DeskContext.DeskProvider.CheckDeskOnTime` and `DeskContext.DeskProvider.CheckHeaterOnTime` likewise use one `now` both for the on-time check (its own `new Date()`) and for the alert they add.
- DeskControls.DeskTimers.Refresh: the code reads the clock separately for each timer; the model uses one `now` for both.

=== FILE: alerts_card.dfy ===
/** The alerts card: a placeholder when there are no alerts, otherwise one item per alert in
    list order, each with a clear button, and a menu entry that clears them all. */
module AlertsCard {
  import DeskContext

  /** The colour classes of an item, one per alert kind; custom alerts are purple. */
  function AlertColor(kind: DeskContext.AlertKind): (c: string)
    ensures |c| > 0
  {
    match kind
    case Temperature => "text-desk-red border-desk-red bg-desk-red/10"
    case Humidity => "text-desk-blue border-desk-blue bg-desk-blue/10"
    case DeskTimeout => "text-desk-orange border-desk-orange bg-desk-orange/10"
    case HeaterTimeout => "text-desk-yellow border-desk-yellow bg-desk-yellow/10"
    case Custom => "text-desk-purple border-desk-purple bg-desk-purple/10"
  }

  /** Different kinds are never drawn in the same colour. */
  lemma AlertColorDistinguishesKinds(k1: DeskContext.AlertKind, k2: DeskContext.AlertKind)
    requires AlertColor(k1) == AlertColor(k2)
    ensures k1 == k2
  {
  }

  function BadgeText(kind: DeskContext.AlertKind): (t: string)
    ensures t == "Alert" <==> kind == DeskContext.Custom
  {
    match kind
    case Temperature => "Temperature"
    case Humidity => "Humidity"
    case DeskTimeout => "Desk Timer"
    case HeaterTimeout => "Heater Timer"
    case Custom => "Alert"
  }

  /** Different kinds never carry the same badge text. */
  lemma BadgeTextDistinguishesKinds(k1: DeskContext.AlertKind, k2: DeskContext.AlertKind)
    requires BadgeText(k1) == BadgeText(k2)
    ensures k1 == k2
  {
  }

  datatype BadgeVariant = DefaultBadge | Destructive | OutlineBadge

  /** Sensor alerts get the destructive badge, every other kind the outline badge. */
  function BadgeVariantOf(kind: DeskContext.AlertKind): (v: BadgeVariant)
    ensures v == Destructive <==> kind == DeskContext.Temperature || kind == DeskContext.Humidity
    ensures v != DefaultBadge
  {
    match kind
    case Temperature => Destructive
    case Humidity => Destructive
    case _ => OutlineBadge
  }

  /** What a click asks the coordinator to do. */
  datatype Action = ClearOne(id: string) | ClearAll

  datatype Item = Item(colors: string, badge: string, variant: BadgeVariant, timestamp: int,
                       message: string, onClear: Action)

  datatype Card = Placeholder | AlertList(items: seq<Item>, menu: Action)

  function ItemFor(a: DeskContext.Alert): Item {
    Item(AlertColor(a.kind), BadgeText(a.kind), BadgeVariantOf(a.kind), a.timestamp, a.message, ClearOne(a.id))
  }

  /** `alerts.map(...)`: one item per alert, in order, each clearing its own alert's id. */
  function Items(alerts: seq<DeskContext.Alert>): (items: seq<Item>)
    ensures |items| == |alerts|
    ensures forall k :: 0 <= k < |alerts| ==>
      items[k].onClear == ClearOne(alerts[k].id) && items[k].message == alerts[k].message
      && items[k].badge == BadgeText(alerts[k].kind) && items[k].colors == AlertColor(alerts[k].kind)
      && items[k].variant == BadgeVariantOf(alerts[k].kind) && items[k].timestamp == alerts[k].timestamp
    decreases |alerts|
  {
    if alerts == [] then [] else [ItemFor(alerts[0])] + Items(alerts[1..])
  }

  /** The placeholder is drawn exactly when the list is empty. */
  function Render(alerts: seq<DeskContext.Alert>): (c: Card)
    ensures c.Placeholder? <==> alerts == []
    ensures c.AlertList? ==> c.items == Items(alerts) && c.menu == ClearAll
  {
    if alerts == [] then Placeholder else AlertList(Items(alerts), ClearAll)
  }

  /** The coordinator's response to a click. */
  function Apply(action: Action, alerts: seq<DeskContext.Alert>): seq<DeskContext.Alert> {
    match action
    case ClearOne(id) => DeskContext.WithoutId(alerts, id)
    case ClearAll => []
  }

  /** Clicking an item's clear button removes that alert (and any alert sharing its id)
      and keeps every alert with another id. */
  lemma ClearButtonRemovesItsAlert(alerts: seq<DeskContext.Alert>, k: nat)
    requires k < |alerts|
    ensures var r := Apply(Render(alerts).items[k].onClear, alerts);
      alerts[k] !in r
      && (forall a :: a in alerts && a.id != alerts[k].id ==> a in r)
  {
    var r := DeskContext.WithoutId(alerts, alerts[k].id);
    DeskContext.WithoutIdSpec(alerts, alerts[k].id);
  }

  /** The menu entry empties the list, after which the placeholder is drawn. */
  lemma MenuClearsAll(alerts: seq<DeskContext.Alert>)
    requires alerts != []
    ensures Render(Apply(Render(alerts).menu, alerts)) == Placeholder
  {
  }
}

=== FILE: bluetooth_connector.dfy ===
/** The connect button: its status icon and text derived from the connection state and the
    local busy flag, its label, the device name under it, and the click handler that asks
    the coordinator to connect or disconnect. */
module BluetoothConnector {
  import opened Wrappers
  import Bluetooth
  import DeskContext

  datatype Icon = BluetoothOff | BluetoothOffRed | BluetoothConnectedGreen | BluetoothSearching | LoaderCircle
  datatype Variant = Outline | Default
  datatype Status = Status(icon: Icon, variant: Variant, text: string)

  /** The status block: connected wins, then connecting (or busy), then error, else
      disconnected; only the connected status uses the filled button. */
  function DeriveStatus(state: Bluetooth.ConnectionState, busy: bool): (s: Status)
    ensures s.text == "Connected" <==> state == Bluetooth.Connected
    ensures s.text == "Connecting..." <==> state != Bluetooth.Connected && (state == Bluetooth.Connecting || busy)
    ensures s.text == "Error" <==> state == Bluetooth.Error && !busy
    ensures s.text == "Disconnected" <==> state == Bluetooth.Disconnected && !busy
    ensures s.variant == Default <==> state == Bluetooth.Connected
    ensures s.icon == BluetoothSearching <==> s.text == "Connecting..."
  {
    match state
    case Connected => Status(BluetoothConnectedGreen, Default, "Connected")
    case _ =>
      if state == Bluetooth.Connecting || busy then Status(BluetoothSearching, Outline, "Connecting...")
      else if state == Bluetooth.Error then Status(BluetoothOffRed, Outline, "Error")
      else Status(BluetoothOff, Outline, "Disconnected")
  }

  /** The button shows the spinner while busy and the status icon otherwise. */
  function ButtonIcon(busy: bool, status: Status): (i: Icon)
    requires status.icon != LoaderCircle
    ensures busy ==> i == LoaderCircle
    ensures !busy ==> i == status.icon && i != LoaderCircle
  {
    if busy then LoaderCircle else status.icon
  }

  function ButtonLabel(isConnected: bool): (l: string)
    ensures l == "Disconnect" <==> isConnected
    ensures l == "Connect" <==> !isConnected
  {
    if isConnected then "Disconnect" else "Connect"
  }

  /** The device name is shown only while connected and when it is not empty. */
  function ShownName(deviceName: Option<string>, isConnected: bool): (r: Option<string>)
    ensures r.Some? <==> isConnected && deviceName.Some? && deviceName.value != ""
    ensures r.Some? ==> r == deviceName
  {
    if isConnected && deviceName.Some? && deviceName.value != "" then deviceName else None
  }

  /** Which coordinator operation a click issued, and whether the busy flag was set then. */
  datatype Request = ConnectRequest(busy: bool) | DisconnectRequest(busy: bool)

  /** The button's local state. */
  class ConnectorPanel {
    var isConnecting: bool
    var issued: seq<Request>

    constructor ()
      ensures !isConnecting && issued == []
    {
      isConnecting := false;
      issued := [];
    }

    /** The click handler: sets the busy flag, disconnects when the coordinator reports a
        connection and connects otherwise (any failure is swallowed), then clears the flag. */
    method HandleToggleConnection(desk: DeskContext.DeskProvider, radio: Bluetooth.Radio)
      modifies this, desk.service`device, desk.service`characteristic, desk.service`connectionState,
        desk.service`deliveries
      ensures !isConnecting
      ensures old(desk.connectionState) == Bluetooth.Connected ==>
        issued == old(issued) + [DisconnectRequest(true)]
        && desk.service.connectionState == Bluetooth.Disconnected && desk.service.device == None
        && desk.service.characteristic == None
        && desk.service.deliveries == old(desk.service.deliveries)
          + Bluetooth.Broadcast(desk.service.listeners, Bluetooth.StateChange(Bluetooth.Disconnected, None))
      ensures old(desk.connectionState) != Bluetooth.Connected ==>
        issued == old(issued) + [ConnectRequest(true)]
      ensures (old(desk.connectionState) != Bluetooth.Connected
               && old(desk.service.connectionState) == Bluetooth.Connected) ==>
        desk.service.connectionState == Bluetooth.Connected && desk.service.device == old(desk.service.device)
        && desk.service.characteristic == old(desk.service.characteristic)
        && desk.service.deliveries == old(desk.service.deliveries)
      ensures (old(desk.connectionState) != Bluetooth.Connected
               && old(desk.service.connectionState) != Bluetooth.Connected) ==>
        var a := Bluetooth.ConnectAttempt(radio, old(desk.service.device), old(desk.service.characteristic));
        desk.service.connectionState == a.state && desk.service.device == a.device
        && desk.service.characteristic == a.characteristic
        && desk.service.deliveries == old(desk.service.deliveries) + Bluetooth.Fanout(desk.service.listeners, a.events)
    {
      isConnecting := true;
      if desk.connectionState == Bluetooth.Connected {
        issued := issued + [DisconnectRequest(isConnecting)];
        desk.Disconnect();
      } else {
        issued := issued + [ConnectRequest(isConnecting)];
        desk.Connect(radio);
      }
      isConnecting := false;
    }
  }
}

=== FILE: bluetooth_service.dfy ===
/** The connection service: at most one radio link, a four-state connection machine, a
    registry of listeners that hear every state change and every inbound payload, and the
    text commands written to the desk module.

    The radio itself (device chooser, GATT connect, service and characteristic lookup,
    notifications, writes) is foreign: each of its steps is an input that says whether that
    step succeeded. The listener callbacks are foreign too: the service records each
    callback it makes, in order, in `deliveries`, and each payload it hands to the
    characteristic in `written`. */
module Bluetooth {
  import opened Wrappers
  import Decimal

  datatype ConnectionState = Disconnected | Connecting | Connected | Error

  /** A peripheral picked in the platform's chooser. */
  datatype Device = Device(id: string, name: Option<string>)

  /** The desk module's read/write/notify channel, by its identifier. */
  datatype Characteristic = Characteristic(uuid: string)

  /** The characteristic of an HC-05 style module's serial service. */
  const CharacteristicUuid := "0000ffe1-0000-1000-8000-00805f9b34fb"

  /** A registered observer; equality of values stands for object identity. */
  datatype Listener = Listener(id: nat)

  datatype Event =
    | StateChange(state: ConnectionState, device: Option<Device>)
    | DataReceived(data: string)

  /** One callback made by the service: to which listener, with which event. */
  datatype Delivery = Delivery(listener: Listener, event: Event)

  datatype ServiceError =
    | Unsupported             // the host has no Bluetooth capability
    | NoDeviceSelected        // the chooser's request was rejected (the user aborted)
    | GattUnavailable         // no GATT server, or connecting to it failed
    | ServiceNotFound
    | CharacteristicNotFound
    | NotificationsFailed
    | NotConnected
    | WriteFailed

  /** How each foreign step of one connect attempt turns out. */
  datatype Radio = Radio(
    supported: bool,
    chosen: Option<Device>,  // None: the chooser's request was rejected
    gattConnected: bool,
    serviceFound: bool,      // the primary service 0000ffe0-0000-1000-8000-00805f9b34fb
    characteristicFound: bool,
    notificationsStarted: bool)

  /** Every foreign step of a connect attempt succeeds. */
  predicate AllStepsSucceed(radio: Radio) {
    radio.supported && radio.chosen.Some? && radio.gattConnected && radio.serviceFound
    && radio.characteristicFound && radio.notificationsStarted
  }

  // ---------------------------------------------------------------------------------------
  // Listener registry

  /** `indexOf`: the position of the first occurrence, or -1. */
  function IndexOf(ls: seq<Listener>, l: Listener): (r: int)
    ensures r == -1 <==> l !in ls
    ensures r != -1 ==> 0 <= r < |ls| && ls[r] == l && l !in ls[..r]
    decreases |ls|
  {
    if ls == [] then -1
    else if ls[0] == l then 0
    else
      var k := IndexOf(ls[1..], l);
      if k == -1 then -1 else k + 1
  }

  /** The registry with the first occurrence of `l` taken out, every other entry in order. */
  function RemoveFirst(ls: seq<Listener>, l: Listener): (r: seq<Listener>)
    ensures l !in ls ==> r == ls
    ensures multiset(r) == multiset(ls) - multiset{l}
    decreases |ls|
  {
    if ls == [] then []
    else
      assert ls == [ls[0]] + ls[1..];
      if ls[0] == l then ls[1..] else [ls[0]] + RemoveFirst(ls[1..], l)
  }

  /** Splicing out position i + 1 of a registry is keeping its head and splicing out
      position i of its tail. */
  lemma SpliceShift(ls: seq<Listener>, i: nat)
    requires i + 1 < |ls|
    ensures ls[..i + 1] + ls[i + 2..] == [ls[0]] + (ls[1..][..i] + ls[1..][i + 1..])
  {
    assert ls[..i + 1] == [ls[0]] + ls[1..][..i];
    assert ls[i + 2..] == ls[1..][i + 1..];
  }

  /** Splicing out the entry `indexOf` finds is removing the first occurrence. */
  lemma {:induction false} SpliceRemovesFirst(ls: seq<Listener>, l: Listener)
    requires l in ls
    ensures var i := IndexOf(ls, l);
      0 <= i < |ls| && ls[..i] + ls[i + 1..] == RemoveFirst(ls, l)
    decreases |ls|
  {
    if ls[0] != l {
      assert l in ls[1..];
      SpliceRemovesFirst(ls[1..], l);
      var i := IndexOf(ls[1..], l);
      assert IndexOf(ls, l) == i + 1;
      SpliceShift(ls, i);
      assert RemoveFirst(ls, l) == [ls[0]] + RemoveFirst(ls[1..], l);
    }
  }

  /** Registering a listener that was not registered and then unregistering it restores
      the registry exactly. */
  lemma {:induction false} RegisterThenUnregister(ls: seq<Listener>, l: Listener)
    requires l !in ls
    ensures RemoveFirst(ls + [l], l) == ls
    decreases |ls|
  {
    if ls != [] {
      RegisterThenUnregister(ls[1..], l);
      assert (ls + [l])[0] == ls[0] != l;
      assert (ls + [l])[1..] == ls[1..] + [l];
      assert RemoveFirst(ls + [l], l) == [ls[0]] + RemoveFirst(ls[1..] + [l], l);
    }
  }

  /** When `l` is registered twice, unregistering it once leaves the later registration. */
  lemma UnregisterKeepsLaterDuplicate(ls: seq<Listener>, l: Listener)
    requires multiset(ls)[l] >= 2
    ensures l in RemoveFirst(ls, l)
  {
    assert multiset(RemoveFirst(ls, l))[l] >= 1;
  }

  // ---------------------------------------------------------------------------------------
  // Fan-out

  /** One `forEach` over the registry: every listener once, in registration order. */
  function Broadcast(ls: seq<Listener>, e: Event): (r: seq<Delivery>)
    ensures |r| == |ls|
    ensures forall k :: 0 <= k < |ls| ==> r[k] == Delivery(ls[k], e)
    decreases |ls|
  {
    if ls == [] then [] else Broadcast(ls[..|ls| - 1], e) + [Delivery(ls[|ls| - 1], e)]
  }

  /** Broadcasts of several events, one after the other. */
  function Fanout(ls: seq<Listener>, events: seq<Event>): (r: seq<Delivery>)
    decreases |events|
  {
    if events == [] then [] else Fanout(ls, events[..|events| - 1]) + Broadcast(ls, events[|events| - 1])
  }

  lemma FanoutTwo(ls: seq<Listener>, e1: Event, e2: Event)
    ensures Fanout(ls, [e1, e2]) == Broadcast(ls, e1) + Broadcast(ls, e2)
  {
    assert [e1, e2][..1] == [e1];
    FanoutOne(ls, e1);
  }

  lemma FanoutOne(ls: seq<Listener>, e: Event)
    ensures Fanout(ls, [e]) == Broadcast(ls, e)
  {
    assert [e][..0] == [];
  }

  /** A listener hears a broadcast exactly as many times as it is registered. */
  lemma BroadcastCount(ls: seq<Listener>, e: Event, l: Listener)
    ensures multiset(Broadcast(ls, e))[Delivery(l, e)] == multiset(ls)[l]
    decreases |ls|
  {
    if ls != [] {
      var init := ls[..|ls| - 1];
      BroadcastCount(init, e, l);
      assert ls == init + [ls[|ls| - 1]];
      assert Broadcast(ls, e) == Broadcast(init, e) + [Delivery(ls[|ls| - 1], e)];
    }
  }

  // ---------------------------------------------------------------------------------------
  // Connect, as a function of the radio's answers

  /** What one connect attempt from a state other than `connected` does: its outcome, the
      state changes it announces (each with the device held at that moment), and the
      device, characteristic and connection state it leaves. */
  datatype Attempt = Attempt(
    outcome: Outcome<ServiceError>,
    events: seq<Event>,
    device: Option<Device>,
    characteristic: Option<Characteristic>,
    state: ConnectionState)

  /** The steps after the chooser: GATT connect, service and characteristic lookup, then
      starting notifications. The characteristic is stored as soon as it is found. */
  datatype Link = Link(outcome: Outcome<ServiceError>, characteristic: Option<Characteristic>, state: ConnectionState)

  function LinkSteps(radio: Radio, characteristic: Option<Characteristic>): (l: Link)
    ensures l.outcome == Pass <==>
      radio.gattConnected && radio.serviceFound && radio.characteristicFound && radio.notificationsStarted
    ensures l.state == if l.outcome == Pass then Connected else Error
    ensures l.characteristic ==
      if radio.gattConnected && radio.serviceFound && radio.characteristicFound
      then Some(Characteristic(CharacteristicUuid)) else characteristic
  {
    var hc05 := Some(Characteristic(CharacteristicUuid));
    if !radio.gattConnected then Link(Fail(GattUnavailable), characteristic, Error)
    else if !radio.serviceFound then Link(Fail(ServiceNotFound), characteristic, Error)
    else if !radio.characteristicFound then Link(Fail(CharacteristicNotFound), characteristic, Error)
    else if !radio.notificationsStarted then Link(Fail(NotificationsFailed), hc05, Error)
    else Link(Pass, hc05, Connected)
  }

  function ConnectAttempt(radio: Radio, device: Option<Device>, characteristic: Option<Characteristic>): (a: Attempt)
    ensures a.outcome == Pass <==> a.state == Connected
    ensures a.state == Connected || a.state == Error
    ensures 1 <= |a.events| <= 2 && a.events[|a.events| - 1] == StateChange(a.state, a.device)
    ensures |a.events| == 2 <==> radio.supported
    ensures |a.events| == 2 ==> a.events[0] == StateChange(Connecting, device)
  {
    if !radio.supported then
      Attempt(Fail(Unsupported), [StateChange(Error, device)], device, characteristic, Error)
    else
      var connecting := StateChange(Connecting, device);
      match radio.chosen
      case None =>
        Attempt(Fail(NoDeviceSelected), [connecting, StateChange(Error, device)], device, characteristic, Error)
      case Some(d) =>
        var link := LinkSteps(radio, characteristic);
        Attempt(link.outcome, [connecting, StateChange(link.state, Some(d))], Some(d), link.characteristic, link.state)
  }

  /** The states announced by a run of events, in order. */
  function States(events: seq<Event>): (r: seq<ConnectionState>)
    ensures |r| <= |events|
    ensures |r| == |events| <==> forall k :: 0 <= k < |events| ==> events[k].StateChange?
  {
    if events == [] then []
    else (if events[0].StateChange? then [events[0].state] else []) + States(events[1..])
  }

  /** A connect attempt succeeds exactly when every radio step does; it then announces
      `connecting` and then `connected`, and holds the chosen device and the desk
      module's characteristic. */
  lemma ConnectSucceedsIff(radio: Radio, device: Option<Device>, characteristic: Option<Characteristic>)
    ensures var a := ConnectAttempt(radio, device, characteristic);
      a.outcome == Pass <==> AllStepsSucceed(radio)
    ensures var a := ConnectAttempt(radio, device, characteristic);
      a.outcome == Pass ==>
        States(a.events) == [Connecting, Connected] && a.state == Connected
        && a.device == radio.chosen && a.characteristic == Some(Characteristic(CharacteristicUuid))
  {
  }

  /** Every failing attempt ends in `error`, announces `error` last, and announces
      `connecting` first exactly when the host has Bluetooth at all. */
  lemma ConnectFailureEndsInError(radio: Radio, device: Option<Device>, characteristic: Option<Characteristic>)
    ensures var a := ConnectAttempt(radio, device, characteristic);
      a.outcome.Fail? ==>
        a.state == Error && |a.events| >= 1 && a.events[|a.events| - 1] == StateChange(Error, a.device)
        && (radio.supported <==> a.events[0].state == Connecting)
    ensures var a := ConnectAttempt(radio, device, characteristic);
      !radio.supported ==> States(a.events) == [Error] && a.outcome == Fail(Unsupported)
  {
  }

  /** Once the chooser has handed over a device, the service keeps it even when a later
      step fails; a rejected chooser leaves the earlier device in place. */
  lemma ConnectKeepsChosenDevice(radio: Radio, device: Option<Device>, characteristic: Option<Characteristic>)
    requires radio.supported
    ensures var a := ConnectAttempt(radio, device, characteristic);
      a.device == (if radio.chosen.Some? then radio.chosen else device)
  {
  }

  // ---------------------------------------------------------------------------------------
  // Wire commands

  /** The text commands the desk module understands. */
  datatype Command = DeskPower(on: bool) | HeaterPower(on: bool) | Light(r: int, g: int, b: int)

  function DeskCommand(on: bool): (s: string)
    ensures Decode(s) == Some(DeskPower(on))
  {
    if on then "D_ON" else "D_OFF"
  }

  function HeaterCommand(on: bool): (s: string)
    ensures Decode(s) == Some(HeaterPower(on))
  {
    if on then "H_ON" else "H_OFF"
  }

  /** The text after `RGB:` splits at its two commas into the three channels, and each
      reads back as its value. */
  lemma RGBFields(r: int, g: int, b: int)
    ensures var R, G, B := Decimal.IntToString(r), Decimal.IntToString(g), Decimal.IntToString(b);
      Decimal.SplitOn(R + [','] + (G + [','] + B), ',') == [R, G, B]
      && Decimal.ParseInt(R) == Some(r) && Decimal.ParseInt(G) == Some(g) && Decimal.ParseInt(B) == Some(b)
  {
    var R, G, B := Decimal.IntToString(r), Decimal.IntToString(g), Decimal.IntToString(b);
    Decimal.IntToStringExcludes(r, ',');
    Decimal.IntToStringExcludes(g, ',');
    Decimal.IntToStringExcludes(b, ',');
    Decimal.SplitAtFirst(R, ',', G + [','] + B);
    Decimal.SplitAtFirst(G, ',', B);
    Decimal.SplitNoSeparator(B, ',');
    Decimal.IntToStringRoundTrip(r);
    Decimal.IntToStringRoundTrip(g);
    Decimal.IntToStringRoundTrip(b);
  }

  /** A text that starts with `RGB:` followed by three channel texts that read back is
      read as that colour. */
  lemma DecodeLight(rest: string, r: int, g: int, b: int)
    requires Decimal.SplitOn(rest, ',') == [Decimal.IntToString(r), Decimal.IntToString(g), Decimal.IntToString(b)]
    requires Decimal.ParseInt(Decimal.IntToString(r)) == Some(r)
    requires Decimal.ParseInt(Decimal.IntToString(g)) == Some(g)
    requires Decimal.ParseInt(Decimal.IntToString(b)) == Some(b)
    ensures Decode("RGB:" + rest) == Some(Light(r, g, b))
  {
    var s := "RGB:" + rest;
    assert s[0] == 'R' && s[..4] == "RGB:" && s[4..] == rest;
  }

  /** `RGB:<r>,<g>,<b>`: decimal, no spaces, no range check. */
  function RGBCommand(r: int, g: int, b: int): (s: string)
    ensures |s| >= 4 && s[..4] == "RGB:" && ' ' !in s
  {
    Decimal.IntToStringExcludes(r, ' ');
    Decimal.IntToStringExcludes(g, ' ');
    Decimal.IntToStringExcludes(b, ' ');
    "RGB:" + (Decimal.IntToString(r) + "," + (Decimal.IntToString(g) + "," + Decimal.IntToString(b)))
  }

  /** No command text contains a space. */
  function Encode(c: Command): (s: string)
    ensures ' ' !in s
  {
    match c
    case DeskPower(on) => DeskCommand(on)
    case HeaterPower(on) => HeaterCommand(on)
    case Light(r, g, b) => RGBCommand(r, g, b)
  }

  /** The reading of a command text on the device side. */
  function Decode(s: string): Option<Command> {
    if s == "D_ON" then Some(DeskPower(true))
    else if s == "D_OFF" then Some(DeskPower(false))
    else if s == "H_ON" then Some(HeaterPower(true))
    else if s == "H_OFF" then Some(HeaterPower(false))
    else if |s| >= 4 && s[..4] == "RGB:" then
      var fields := Decimal.SplitOn(s[4..], ',');
      if |fields| != 3 then None
      else
        match (Decimal.ParseInt(fields[0]), Decimal.ParseInt(fields[1]), Decimal.ParseInt(fields[2]))
        case (Some(r), Some(g), Some(b)) => Some(Light(r, g, b))
        case _ => None
    else None
  }

  /** Every command is read back as itself, so distinct commands have distinct texts. */
  lemma DecodeEncode(c: Command)
    ensures Decode(Encode(c)) == Some(c)
  {
    match c
    case DeskPower(on) =>
    case HeaterPower(on) =>
    case Light(r, g, b) => LightReadsBack(r, g, b);
  }

  lemma LightReadsBack(r: int, g: int, b: int)
    ensures Decode(RGBCommand(r, g, b)) == Some(Light(r, g, b))
  {
    var R, G, B := Decimal.IntToString(r), Decimal.IntToString(g), Decimal.IntToString(b);
    RGBFields(r, g, b);
    DecodeLight(R + [','] + (G + [','] + B), r, g, b);
  }

  lemma EncodeInjective(c1: Command, c2: Command)
    requires Encode(c1) == Encode(c2)
    ensures c1 == c2
  {
    DecodeEncode(c1);
    DecodeEncode(c2);
  }

  /** Out-of-range channels pass through literally. */
  lemma RGBCommandNotClamped()
    ensures RGBCommand(300, -5, 10) == "RGB:300,-5,10"
  {
    ChannelTexts();
  }

  lemma ChannelTexts()
    ensures Decimal.IntToString(300) == "300" && Decimal.IntToString(-5) == "-5"
    ensures Decimal.IntToString(10) == "10"
  {
    assert Decimal.NatToString(3) == "3";
    assert Decimal.NatToString(30) == "30";
    assert Decimal.NatToString(300) == "300";
    assert Decimal.NatToString(5) == "5";
    assert Decimal.NatToString(1) == "1";
    assert Decimal.NatToString(10) == "10";
  }

  // ---------------------------------------------------------------------------------------
  // The service object

  class BluetoothService {
    var device: Option<Device>
    var characteristic: Option<Characteristic>
    var connectionState: ConnectionState
    var listeners: seq<Listener>
    /** Every listener callback made so far, oldest first. */
    var deliveries: seq<Delivery>
    /** Every payload written to the characteristic so far, oldest first. */
    var written: seq<string>

    constructor ()
      ensures device == None && characteristic == None && connectionState == Disconnected
      ensures listeners == [] && deliveries == [] && written == []
    {
      device := None;
      characteristic := None;
      connectionState := Disconnected;
      listeners := [];
      deliveries := [];
      written := [];
    }

    /** A payload can be written: a characteristic is held and the state is `connected`. */
    predicate Ready()
      reads this
    {
      characteristic.Some? && connectionState == Connected
    }

    method RegisterListener(l: Listener)
      modifies this`listeners
      ensures listeners == old(listeners) + [l]
    {
      listeners := listeners + [l];
    }

    method UnregisterListener(l: Listener)
      modifies this`listeners
      ensures listeners == RemoveFirst(old(listeners), l)
    {
      var index := IndexOf(listeners, l);
      if index != -1 {
        SpliceRemovesFirst(listeners, l);
        listeners := listeners[..index] + listeners[index + 1..];
      }
    }

    method NotifyConnectionStateChange(state: ConnectionState)
      modifies this`connectionState, this`deliveries
      ensures connectionState == state
      ensures deliveries == old(deliveries) + Broadcast(listeners, StateChange(state, device))
    {
      connectionState := state;
      var event := StateChange(state, device);
      var i := 0;
      while i < |listeners|
        invariant 0 <= i <= |listeners|
        invariant deliveries == old(deliveries) + Broadcast(listeners[..i], event)
        invariant connectionState == state
      {
        deliveries := deliveries + [Delivery(listeners[i], event)];
        assert listeners[..i + 1][..i] == listeners[..i];
        i := i + 1;
      }
      assert listeners[..i] == listeners;
    }

    method NotifyDataReceived(data: string)
      modifies this`deliveries
      ensures deliveries == old(deliveries) + Broadcast(listeners, DataReceived(data))
    {
      var event := DataReceived(data);
      var i := 0;
      while i < |listeners|
        invariant 0 <= i <= |listeners|
        invariant deliveries == old(deliveries) + Broadcast(listeners[..i], event)
      {
        deliveries := deliveries + [Delivery(listeners[i], event)];
        assert listeners[..i + 1][..i] == listeners[..i];
        i := i + 1;
      }
      assert listeners[..i] == listeners;
    }

    method IsConnected() returns (r: bool)
      ensures r <==> connectionState == Connected
    {
      r := connectionState == Connected;
    }

    /** A connect request: a no-op when already connected; otherwise the attempt that the
        radio's answers determine. */
    method Connect(radio: Radio) returns (outcome: Outcome<ServiceError>)
      modifies this`device, this`characteristic, this`connectionState, this`deliveries
      ensures old(connectionState) == Connected ==>
        outcome == Pass && device == old(device) && characteristic == old(characteristic)
        && connectionState == Connected && deliveries == old(deliveries)
      ensures old(connectionState) != Connected ==>
        var a := ConnectAttempt(radio, old(device), old(characteristic));
        outcome == a.outcome && device == a.device && characteristic == a.characteristic
        && connectionState == a.state && deliveries == old(deliveries) + Fanout(listeners, a.events)
    {
      if connectionState == Connected {
        return Pass;
      }
      outcome := RunAttempt(radio);
    }

    /** A connect attempt from a state other than `connected`. */
    method RunAttempt(radio: Radio) returns (outcome: Outcome<ServiceError>)
      modifies this`device, this`characteristic, this`connectionState, this`deliveries
      ensures var a := ConnectAttempt(radio, old(device), old(characteristic));
        outcome == a.outcome && device == a.device && characteristic == a.characteristic
        && connectionState == a.state && deliveries == old(deliveries) + Fanout(listeners, a.events)
    {
      if !radio.supported {
        NotifyConnectionStateChange(Error);
        FanoutOne(listeners, StateChange(Error, device));
        return Fail(Unsupported);
      }
      outcome := ChooseAndLink(radio);
    }

    /** With Bluetooth present: announce `connecting`, ask the chooser for a device and, when
        one is handed over, open the link to it. */
    method ChooseAndLink(radio: Radio) returns (outcome: Outcome<ServiceError>)
      modifies this`device, this`characteristic, this`connectionState, this`deliveries
      ensures radio.chosen.None? ==>
        outcome == Fail(NoDeviceSelected) && device == old(device) && characteristic == old(characteristic)
        && connectionState == Error
        && deliveries == old(deliveries) + Fanout(listeners, [StateChange(Connecting, old(device)), StateChange(Error, old(device))])
      ensures radio.chosen.Some? ==>
        var link := LinkSteps(radio, old(characteristic));
        outcome == link.outcome && device == radio.chosen && characteristic == link.characteristic
        && connectionState == link.state
        && deliveries == old(deliveries) + Fanout(listeners, [StateChange(Connecting, old(device)), StateChange(link.state, radio.chosen)])
    {
      var before := device;
      NotifyConnectionStateChange(Connecting);
      if radio.chosen.None? {
        NotifyConnectionStateChange(Error);
        FanoutTwo(listeners, StateChange(Connecting, before), StateChange(Error, device));
        return Fail(NoDeviceSelected);
      }
      outcome := LinkChosen(radio);
      FanoutTwo(listeners, StateChange(Connecting, before), StateChange(connectionState, device));
    }

    /** The chooser handed over a device: it is held from now on, and the link to it is
        opened. */
    method LinkChosen(radio: Radio) returns (outcome: Outcome<ServiceError>)
      requires radio.chosen.Some?
      modifies this`device, this`characteristic, this`connectionState, this`deliveries
      ensures var link := LinkSteps(radio, old(characteristic));
        outcome == link.outcome && device == radio.chosen && characteristic == link.characteristic
        && connectionState == link.state
      ensures deliveries == old(deliveries) + Broadcast(listeners, StateChange(connectionState, device))
    {
      device := radio.chosen;
      outcome := OpenLink(radio);
    }

    /** The part of a connect attempt after a device has been chosen, ending with the
        announcement of `connected` or `error`. */
    method OpenLink(radio: Radio) returns (outcome: Outcome<ServiceError>)
      modifies this`characteristic, this`connectionState, this`deliveries
      ensures var link := LinkSteps(radio, old(characteristic));
        outcome == link.outcome && characteristic == link.characteristic && connectionState == link.state
      ensures deliveries == old(deliveries) + Broadcast(listeners, StateChange(connectionState, device))
    {
      outcome := Pass;
      if !radio.gattConnected {
        outcome := Fail(GattUnavailable);
      } else if !radio.serviceFound {
        outcome := Fail(ServiceNotFound);
      } else if !radio.characteristicFound {
        outcome := Fail(CharacteristicNotFound);
      } else {
        characteristic := Some(Characteristic(CharacteristicUuid));
        if !radio.notificationsStarted {
          outcome := Fail(NotificationsFailed);
        }
      }
      NotifyConnectionStateChange(if outcome.Fail? then Error else Connected);
    }

    /** The handler installed on the device for `gattserverdisconnected`: the link was
        dropped by the peer. The device reference is kept. */
    method OnGattServerDisconnected()
      modifies this`characteristic, this`connectionState, this`deliveries
      ensures characteristic == None && connectionState == Disconnected && device == old(device)
      ensures deliveries == old(deliveries) + Broadcast(listeners, StateChange(Disconnected, device))
    {
      characteristic := None;
      NotifyConnectionStateChange(Disconnected);
    }

    /** The handler installed on the characteristic for `characteristicvaluechanged`:
        a payload that carries a value goes to every listener. */
    method OnCharacteristicValueChanged(value: Option<string>)
      modifies this`deliveries
      ensures deliveries == old(deliveries) + (if value.Some? then Broadcast(listeners, DataReceived(value.value)) else [])
    {
      if value.Some? {
        NotifyDataReceived(value.value);
      }
    }

    /** Tears the link down, whatever the state, and always announces `disconnected`. */
    method Disconnect()
      modifies this`device, this`characteristic, this`connectionState, this`deliveries
      ensures device == None && characteristic == None && connectionState == Disconnected
      ensures deliveries == old(deliveries) + Broadcast(listeners, StateChange(Disconnected, None))
    {
      device := None;
      characteristic := None;
      NotifyConnectionStateChange(Disconnected);
    }

    /** One best-effort write; `writeOk` is whether the radio's write succeeded. */
    method SendData(data: string, writeOk: bool) returns (outcome: Outcome<ServiceError>)
      modifies this`written
      ensures outcome == Fail(NotConnected) <==> !Ready()
      ensures outcome == Pass <==> Ready() && writeOk
      ensures outcome != Pass ==> written == old(written)
      ensures outcome == Pass ==> written == old(written) + [data]
    {
      if characteristic.None? || connectionState != Connected {
        return Fail(NotConnected);
      }
      if writeOk {
        written := written + [data];
        outcome := Pass;
      } else {
        outcome := Fail(WriteFailed);
      }
    }

    method SendDeskCommand(on: bool, writeOk: bool) returns (outcome: Outcome<ServiceError>)
      modifies this`written
      ensures outcome == Fail(NotConnected) <==> !Ready()
      ensures outcome == Pass <==> Ready() && writeOk
      ensures written == if outcome == Pass then old(written) + [Encode(DeskPower(on))] else old(written)
    {
      outcome := SendData(DeskCommand(on), writeOk);
    }

    method SendHeaterCommand(on: bool, writeOk: bool) returns (outcome: Outcome<ServiceError>)
      modifies this`written
      ensures outcome == Fail(NotConnected) <==> !Ready()
      ensures outcome == Pass <==> Ready() && writeOk
      ensures written == if outcome == Pass then old(written) + [Encode(HeaterPower(on))] else old(written)
    {
      outcome := SendData(HeaterCommand(on), writeOk);
    }

    method SendRGBCommand(r: int, g: int, b: int, writeOk: bool) returns (outcome: Outcome<ServiceError>)
      modifies this`written
      ensures outcome == Fail(NotConnected) <==> !Ready()
      ensures outcome == Pass <==> Ready() && writeOk
      ensures written == if outcome == Pass then old(written) + [Encode(Light(r, g, b))] else old(written)
    {
      outcome := SendData(RGBCommand(r, g, b), writeOk);
    }
  }
}

=== FILE: decimal.dfy ===
/** The text conversions the desk code relies on, written out: JavaScript's rendering of an
    integral Number as decimal text (template literals and `toString()`), `toFixed(1)` for a
    value held in tenths, `String.prototype.split` on a one-character separator and
    `padStart`. Each conversion comes with the parser or join that undoes it. */
module Decimal {
  import opened Wrappers

  predicate IsDigit(c: char) {
    '0' <= c <= '9'
  }

  predicate AllDigits(s: string) {
    forall i :: 0 <= i < |s| ==> IsDigit(s[i])
  }

  function DigitValue(c: char): (d: nat)
    requires IsDigit(c)
    ensures d < 10
  {
    c as int - '0' as int
  }

  function DigitChar(d: nat): (c: char)
    requires d < 10
    ensures IsDigit(c) && DigitValue(c) == d
  {
    ('0' as int + d) as char
  }

  /** Decimal text of a natural number: most significant digit first, no leading zero. */
  function NatToString(n: nat): (s: string)
    ensures |s| >= 1 && AllDigits(s)
    ensures s[0] == '0' ==> s == "0"
    decreases n
  {
    if n < 10 then [DigitChar(n)] else NatToString(n / 10) + [DigitChar(n % 10)]
  }

  /** How JavaScript renders an integral Number: a minus sign for negative values. */
  function IntToString(i: int): (s: string)
    ensures |s| >= 1
    ensures s[0] == '-' <==> i < 0
    ensures forall k :: 0 <= k < |s| ==> IsDigit(s[k]) || (k == 0 && s[k] == '-')
  {
    if i < 0 then "-" + NatToString(-i) else NatToString(i)
  }

  /** Value of a run of decimal digits (leading zeros allowed). */
  function DigitsValue(s: string): nat
    requires AllDigits(s)
    decreases |s|
  {
    if s == [] then 0 else DigitsValue(s[..|s| - 1]) * 10 + DigitValue(s[|s| - 1])
  }

  function ParseNat(s: string): (r: Option<nat>)
    ensures r.Some? <==> |s| >= 1 && AllDigits(s)
  {
    if |s| >= 1 && AllDigits(s) then Some(DigitsValue(s)) else None
  }

  function ParseInt(s: string): Option<int>
  {
    var negative := |s| >= 1 && s[0] == '-';
    match ParseNat(if negative then s[1..] else s)
    case None => None
    case Some(n) => Some(if negative then -(n as int) else n as int)
  }

  lemma {:induction false} NatToStringRoundTrip(n: nat)
    ensures ParseNat(NatToString(n)) == Some(n)
    decreases n
  {
    var s := NatToString(n);
    if n < 10 {
      assert s[..|s| - 1] == [];
      assert DigitsValue(s) == DigitValue(s[0]);
    } else {
      NatToStringRoundTrip(n / 10);
      assert s[..|s| - 1] == NatToString(n / 10);
    }
  }

  lemma IntToStringRoundTrip(i: int)
    ensures ParseInt(IntToString(i)) == Some(i)
  {
    if i < 0 {
      NatToStringRoundTrip(-i);
      assert IntToString(i)[1..] == NatToString(-i);
    } else {
      NatToStringRoundTrip(i);
    }
  }

  /** Distinct integers never render to the same text. */
  lemma IntToStringInjective(i: int, j: int)
    requires IntToString(i) == IntToString(j)
    ensures i == j
  {
    IntToStringRoundTrip(i);
    IntToStringRoundTrip(j);
  }

  lemma DigitsExclude(s: string, c: char)
    requires AllDigits(s) && !IsDigit(c)
    ensures c !in s
  {
  }

  lemma IntToStringExcludes(i: int, c: char)
    requires !IsDigit(c) && c != '-'
    ensures c !in IntToString(i)
  {
  }

  /** `s.split(sep)` for a one-character separator: the pieces between separators, in
      order; the empty string gives one empty piece. */
  function SplitOn(s: string, sep: char): (parts: seq<string>)
    ensures |parts| >= 1
    ensures |parts| == 1 <==> sep !in s
    ensures forall k :: 0 <= k < |parts| ==> sep !in parts[k]
    decreases |s|
  {
    if s == [] then [""]
    else
      var rest := SplitOn(s[1..], sep);
      assert s == [s[0]] + s[1..];
      if s[0] == sep then [""] + rest else [[s[0]] + rest[0]] + rest[1..]
  }

  /** `parts.join(sep)`. */
  function JoinWith(parts: seq<string>, sep: char): (s: string)
    requires |parts| >= 1
    decreases |parts|
  {
    if |parts| == 1 then parts[0] else parts[0] + [sep] + JoinWith(parts[1..], sep)
  }

  lemma {:induction false} SplitNoSeparator(s: string, sep: char)
    requires sep !in s
    ensures SplitOn(s, sep) == [s]
    decreases |s|
  {
    if s != [] {
      SplitNoSeparator(s[1..], sep);
      assert [s[0]] + s[1..] == s;
    }
  }

  lemma {:induction false} SplitAtFirst(a: string, sep: char, b: string)
    requires sep !in a
    ensures SplitOn(a + [sep] + b, sep) == [a] + SplitOn(b, sep)
    decreases |a|
  {
    var s := a + [sep] + b;
    if a == [] {
      assert s[1..] == b;
    } else {
      SplitAtFirst(a[1..], sep, b);
      assert s[1..] == a[1..] + [sep] + b;
      assert [a[0]] + a[1..] == a;
    }
  }

  /** Splitting on a separator and joining on the same separator gives back the text. */
  lemma {:induction false} JoinSplit(s: string, sep: char)
    ensures JoinWith(SplitOn(s, sep), sep) == s
    decreases |s|
  {
    if s != [] {
      var rest := SplitOn(s[1..], sep);
      JoinSplit(s[1..], sep);
      if s[0] == sep {
        assert ([""] + rest)[1..] == rest;
      } else {
        var parts := [[s[0]] + rest[0]] + rest[1..];
        if |rest| == 1 {
          assert JoinWith(parts, sep) == [s[0]] + rest[0];
        } else {
          assert parts[1..] == rest[1..];
          assert JoinWith(rest, sep) == rest[0] + [sep] + JoinWith(rest[1..], sep);
        }
      }
    }
  }

  /** When the separator occurs, the first two pieces with the separator between them
      are how the text begins. */
  lemma SplitFirstTwoPrefix(s: string, sep: char)
    ensures var parts := SplitOn(s, sep);
      sep in s ==>
        |parts| >= 2 && |parts[0]| + 1 + |parts[1]| <= |s|
        && s[..|parts[0]| + 1 + |parts[1]|] == parts[0] + [sep] + parts[1]
  {
    var parts := SplitOn(s, sep);
    if sep !in s {
      return;
    }
    JoinSplit(s, sep);
    var tail := JoinWith(parts[1..], sep);
    assert s == parts[0] + [sep] + tail;
    if |parts| > 2 {
      assert tail == parts[1] + [sep] + JoinWith(parts[2..], sep) by {
        assert parts[1..][1..] == parts[2..];
      }
    }
    assert tail[..|parts[1]|] == parts[1];
  }

  function Repeat(c: char, n: nat): (r: string)
    ensures |r| == n && forall i :: 0 <= i < n ==> r[i] == c
  {
    seq(n, _ => c)
  }

  /** `s.padStart(width, fill)` for a one-character fill. */
  function PadStart(s: string, width: nat, fill: char): (r: string)
    ensures |r| == if |s| >= width then |s| else width
    ensures r[|r| - |s|..] == s
    ensures forall i :: 0 <= i < |r| - |s| ==> r[i] == fill
  {
    if |s| >= width then s else Repeat(fill, width - |s|) + s
  }

  /** `(tenths / 10).toFixed(1)`: for a value that is a whole number of tenths the
      rounding of toFixed is exact, so the text is the sign, the whole part and one digit. */
  function Fixed1(tenths: int): (s: string)
    ensures |s| >= 3 && s[|s| - 2] == '.' && IsDigit(s[|s| - 1])
    ensures s[0] == '-' <==> tenths < 0
  {
    var a := if tenths < 0 then -tenths else tenths;
    (if tenths < 0 then "-" else "") + NatToString(a / 10) + "." + [DigitChar(a % 10)]
  }

  /** Reads back a one-decimal text such as "36.2" or "-0.5" as a number of tenths. */
  function ParseFixed1(s: string): Option<int>
  {
    var negative := |s| >= 1 && s[0] == '-';
    var body := if negative then s[1..] else s;
    var parts := SplitOn(body, '.');
    if |parts| != 2 || |parts[1]| != 1 || !IsDigit(parts[1][0]) then None
    else
      match ParseNat(parts[0])
      case None => None
      case Some(whole) =>
        var t := whole * 10 + DigitValue(parts[1][0]);
        Some(if negative then -t else t)
  }

  /** The unsigned part of a one-decimal text splits at its point into the whole part and
      the digit, and the whole part reads back as the number it shows. */
  lemma Fixed1BodyParts(whole: nat, digit: nat)
    requires digit < 10
    ensures var w := NatToString(whole);
      SplitOn(w + "." + [DigitChar(digit)], '.') == [w, [DigitChar(digit)]]
      && ParseNat(w) == Some(whole)
  {
    var w := NatToString(whole);
    DigitsExclude(w, '.');
    SplitAtFirst(w, '.', [DigitChar(digit)]);
    SplitNoSeparator([DigitChar(digit)], '.');
    NatToStringRoundTrip(whole);
  }

  /** An unsigned one-decimal text reads back as its tenths, with and without a minus. */
  lemma ParseFixed1Body(whole: nat, digit: nat)
    requires digit < 10
    ensures var body := NatToString(whole) + "." + [DigitChar(digit)];
      ParseFixed1(body) == Some(whole * 10 + digit)
      && ParseFixed1("-" + body) == Some(-(whole * 10 + digit))
  {
    var body := NatToString(whole) + "." + [DigitChar(digit)];
    Fixed1BodyParts(whole, digit);
    assert body[0] != '-';
    assert ("-" + body)[0] == '-' && ("-" + body)[1..] == body;
  }

  /** The text is the unsigned text, behind a minus sign for a negative value. */
  lemma Fixed1Shape(tenths: int)
    ensures var a := if tenths < 0 then -tenths else tenths;
      var body := NatToString(a / 10) + "." + [DigitChar(a % 10)];
      Fixed1(tenths) == if tenths < 0 then "-" + body else body
  {
    var a := if tenths < 0 then -tenths else tenths;
    var w, d := NatToString(a / 10), [DigitChar(a % 10)];
    assert (if tenths < 0 then "-" else "") + w + "." + d == (if tenths < 0 then "-" else "") + (w + "." + d);
    if tenths >= 0 {
      assert "" + (w + "." + d) == w + "." + d;
    }
  }

  lemma Fixed1RoundTrip(tenths: int)
    ensures ParseFixed1(Fixed1(tenths)) == Some(tenths)
  {
    var a := if tenths < 0 then -tenths else tenths;
    var body := NatToString(a / 10) + "." + [DigitChar(a % 10)];
    ParseFixed1Body(a / 10, a % 10);
    assert (a / 10) * 10 + a % 10 == a;
    Fixed1Shape(tenths);
  }
}

=== FILE: desk_context.dfy ===
/** The desk state coordinator: the provider that holds the connection state it has been
    told about, the device name, the telemetry history, the optimistic device state and the
    alert list, and that turns user commands into wire commands on the connection service.

    Clock readings (`now`, `tTemp`, `tHum`, in milliseconds) and telemetry samples are
    inputs. Temperatures
    and humidities are whole numbers of tenths (362 is 36.2 °C). */
module DeskContext {
  import opened Wrappers
  import Decimal
  import Bluetooth

  datatype SensorData = SensorData(temperature: int, humidity: int, timestamp: int)

  datatype RGBColor = RGBColor(r: int, g: int, b: int)

  datatype AlertKind = Temperature | Humidity | DeskTimeout | HeaterTimeout | Custom

  datatype Alert = Alert(id: string, kind: AlertKind, message: string, timestamp: int, seen: bool)

  datatype DeviceState = DeviceState(
    deskOn: bool,
    deskOnTimestamp: Option<int>,
    heaterOn: bool,
    heaterOnTimestamp: Option<int>,
    rgbColor: RGBColor)

  const InitialDeviceState := DeviceState(false, None, false, None, RGBColor(128, 0, 255))

  /** Alert thresholds, in tenths. */
  const TemperatureLimit := 350
  const HumidityLimit := 300

  /** The on-time after which a timeout alert is raised, in minutes and in milliseconds. */
  const OnTimeLimitMinutes: real := 20.0
  const OnTimeLimitMs := 1200000

  /** Each tick keeps this many of the previous samples (`slice(-29)`). */
  const HistoryKeep := 29

  const DeskTimeoutMessage := "Your desk has been ON for more than 20 minutes"
  const HeaterTimeoutMessage := "Your heater has been ON for more than 20 minutes"

  // ---------------------------------------------------------------------------------------
  // Device state

  /** A switch's timestamp is set exactly while it is on. */
  predicate TimestampsMatch(ds: DeviceState) {
    (ds.deskOnTimestamp.Some? <==> ds.deskOn) && (ds.heaterOnTimestamp.Some? <==> ds.heaterOn)
  }

  lemma InitialStateMatches()
    ensures TimestampsMatch(InitialDeviceState)
    ensures !InitialDeviceState.deskOn && !InitialDeviceState.heaterOn
  {
  }

  /** The state a toggle aims for: the explicit argument if there is one, else the opposite
      of the current flag. */
  function Target(explicit: Option<bool>, current: bool): (r: bool)
    ensures explicit.Some? ==> r == explicit.value
    ensures explicit.None? ==> r != current
  {
    explicit.GetOr(!current)
  }

  /** The desk after a successful desk command. */
  function SwitchDesk(ds: DeviceState, on: bool, now: int): (r: DeviceState)
    ensures r.deskOn == on && (r.deskOnTimestamp.Some? <==> on)
    ensures on ==> r.deskOnTimestamp == Some(now)
    ensures r.heaterOn == ds.heaterOn && r.heaterOnTimestamp == ds.heaterOnTimestamp
    ensures r.rgbColor == ds.rgbColor
    ensures TimestampsMatch(ds) ==> TimestampsMatch(r)
  {
    ds.(deskOn := on, deskOnTimestamp := if on then Some(now) else None)
  }

  /** The heater after a successful heater command. */
  function SwitchHeater(ds: DeviceState, on: bool, now: int): (r: DeviceState)
    ensures r.heaterOn == on && (r.heaterOnTimestamp.Some? <==> on)
    ensures on ==> r.heaterOnTimestamp == Some(now)
    ensures r.deskOn == ds.deskOn && r.deskOnTimestamp == ds.deskOnTimestamp
    ensures r.rgbColor == ds.rgbColor
    ensures TimestampsMatch(ds) ==> TimestampsMatch(r)
  {
    ds.(heaterOn := on, heaterOnTimestamp := if on then Some(now) else None)
  }

  /** Two argument-less toggles that both succeed restore the flag and, for an initially
      off desk, its cleared timestamp. */
  lemma ToggleDeskTwice(ds: DeviceState, t1: int, t2: int)
    requires TimestampsMatch(ds)
    ensures var once := SwitchDesk(ds, Target(None, ds.deskOn), t1);
      var twice := SwitchDesk(once, Target(None, once.deskOn), t2);
      twice.deskOn == ds.deskOn && (!ds.deskOn ==> twice == ds)
  {
  }

  // ---------------------------------------------------------------------------------------
  // Alerts

  /** `addAlert`'s new entry: the id is the decimal text of the clock reading. */
  function NewAlert(kind: AlertKind, message: string, now: int): (a: Alert)
    ensures !a.seen && a.kind == kind && a.message == message && a.timestamp == now
  {
    Alert(Decimal.IntToString(now), kind, message, now, false)
  }

  /** The id reads back as the clock reading it was made from, so alerts made at different
      milliseconds never share an id. */
  lemma NewAlertIdReadsBack(kind: AlertKind, message: string, now: int)
    ensures Decimal.ParseInt(NewAlert(kind, message, now).id) == Some(now)
  {
    Decimal.IntToStringRoundTrip(now);
  }

  function TemperatureMessage(tenths: int): string {
    "High temperature detected: " + Decimal.Fixed1(tenths) + "°C"
  }

  function HumidityMessage(tenths: int): string {
    "Low humidity detected: " + Decimal.Fixed1(tenths) + "%"
  }

  function CountKind(alerts: seq<Alert>, kind: AlertKind): nat
    decreases |alerts|
  {
    if alerts == [] then 0 else (if alerts[0].kind == kind then 1 else 0) + CountKind(alerts[1..], kind)
  }

  /** What `checkForAlerts` prepends for one sample, newest first. The temperature alert
      is added first, with the clock reading `tTemp` of its own `addAlert` call; the
      humidity alert then goes in front of it, with the later reading `tHum`. */
  function ThresholdAlerts(data: SensorData, tTemp: int, tHum: int): seq<Alert>
  {
    (if data.humidity < HumidityLimit then [NewAlert(Humidity, HumidityMessage(data.humidity), tHum)] else [])
    + (if data.temperature > TemperatureLimit then [NewAlert(Temperature, TemperatureMessage(data.temperature), tTemp)] else [])
  }

  /** A sample raises one temperature alert exactly when it is above 35 °C and one humidity
      alert exactly when it is below 30 %RH, nothing else; when both fire the humidity alert
      comes first. All of them are unseen, carry the reading in their message, and are
      stamped and identified by the clock reading of their own `addAlert` call. */
  lemma ThresholdAlertsSpec(data: SensorData, tTemp: int, tHum: int)
    ensures var r := ThresholdAlerts(data, tTemp, tHum);
      CountKind(r, Temperature) == (if data.temperature > TemperatureLimit then 1 else 0)
      && CountKind(r, Humidity) == (if data.humidity < HumidityLimit then 1 else 0)
      && |r| == CountKind(r, Temperature) + CountKind(r, Humidity)
    ensures var r := ThresholdAlerts(data, tTemp, tHum);
      forall k :: 0 <= k < |r| ==>
        !r[k].seen
        && (r[k].kind == Temperature ==> r[k].timestamp == tTemp && r[k].id == Decimal.IntToString(tTemp)
                                         && r[k].message == TemperatureMessage(data.temperature))
        && (r[k].kind == Humidity ==> r[k].timestamp == tHum && r[k].id == Decimal.IntToString(tHum)
                                      && r[k].message == HumidityMessage(data.humidity))
    ensures data.temperature > TemperatureLimit && data.humidity < HumidityLimit ==>
      var r := ThresholdAlerts(data, tTemp, tHum);
      r[0].kind == Humidity && r[1].kind == Temperature
  {
    var r := ThresholdAlerts(data, tTemp, tHum);
    if |r| == 2 {
      assert r[1..][1..] == [];
      assert CountKind(r[1..], Temperature) == 1 && CountKind(r[1..], Humidity) == 0;
    } else if |r| == 1 {
      assert r[1..] == [];
    }
  }

  /** A 36.2 °C sample raises exactly one alert, whose message shows "36.2". */
  lemma HighTemperatureScenario(timestamp: int, tTemp: int, tHum: int)
    ensures ThresholdAlerts(SensorData(362, 450, timestamp), tTemp, tHum)
      == [NewAlert(Temperature, "High temperature detected: 36.2°C", tTemp)]
  {
    assert Decimal.DigitChar(2) == '2' && Decimal.DigitChar(3) == '3' && Decimal.DigitChar(6) == '6';
    assert Decimal.NatToString(3) == "3";
    assert Decimal.NatToString(36) == "36";
    assert Decimal.Fixed1(362) == "36.2";
    assert TemperatureMessage(362) == "High temperature detected: 36.2°C";
  }

  /** `clearAlert`'s filter: every alert whose id differs, in order. */
  function WithoutId(alerts: seq<Alert>, id: string): (r: seq<Alert>)
    ensures |r| <= |alerts|
    ensures forall k :: 0 <= k < |r| ==> r[k].id != id
    decreases |alerts|
  {
    if alerts == [] then []
    else (if alerts[0].id == id then [] else [alerts[0]]) + WithoutId(alerts[1..], id)
  }

  /** No alert with the id survives; every alert with another id does; nothing new
      appears; and a list without the id is left as it is. */
  lemma {:induction false} WithoutIdSpec(alerts: seq<Alert>, id: string)
    ensures var r := WithoutId(alerts, id);
      |r| <= |alerts|
      && (forall k :: 0 <= k < |r| ==> r[k].id != id && r[k] in alerts)
      && (forall a :: a in alerts && a.id != id ==> a in r)
      && ((forall k :: 0 <= k < |alerts| ==> alerts[k].id != id) ==> r == alerts)
    decreases |alerts|
  {
    if alerts != [] {
      WithoutIdSpec(alerts[1..], id);
      assert alerts == [alerts[0]] + alerts[1..];
    }
  }

  /** Filtering distributes over concatenation: the survivors keep their relative order. */
  lemma {:induction false} WithoutIdAppend(a: seq<Alert>, b: seq<Alert>, id: string)
    ensures WithoutId(a + b, id) == WithoutId(a, id) + WithoutId(b, id)
    decreases |a|
  {
    if a != [] {
      WithoutIdAppend(a[1..], b, id);
      assert (a + b)[0] == a[0] && (a + b)[1..] == a[1..] + b;
      var head := if a[0].id == id then [] else [a[0]];
      assert WithoutId(a + b, id) == head + WithoutId(a[1..] + b, id);
      assert WithoutId(a, id) == head + WithoutId(a[1..], id);
    } else {
      assert a + b == b;
    }
  }

  /** Clearing twice by the same id is clearing once. */
  lemma {:induction false} WithoutIdIdempotent(alerts: seq<Alert>, id: string)
    ensures WithoutId(WithoutId(alerts, id), id) == WithoutId(alerts, id)
  {
    WithoutIdSpec(alerts, id);
    WithoutIdSpec(WithoutId(alerts, id), id);
  }

  /** Filtering a one-alert list keeps the alert exactly when its id differs. */
  lemma WithoutIdOne(a: Alert, id: string)
    ensures WithoutId([a], id) == if a.id == id then [] else [a]
  {
    assert [a][1..] == [];
  }

  /** When one sample raises both alerts, clearing the temperature alert's id also removes
      the humidity alert exactly when both `addAlert` calls read the same millisecond;
      older alerts are filtered as usual. */
  lemma ClearTemperatureAlertOfSample(data: SensorData, tTemp: int, tHum: int, older: seq<Alert>)
    requires data.temperature > TemperatureLimit && data.humidity < HumidityLimit
    ensures var added := ThresholdAlerts(data, tTemp, tHum);
      var id := Decimal.IntToString(tTemp);
      added[1].kind == Temperature && added[1].id == id
      && WithoutId(added + older, id) == (if tTemp == tHum then [] else [added[0]]) + WithoutId(older, id)
  {
    var hum := NewAlert(Humidity, HumidityMessage(data.humidity), tHum);
    var temp := NewAlert(Temperature, TemperatureMessage(data.temperature), tTemp);
    var id := Decimal.IntToString(tTemp);
    assert ThresholdAlerts(data, tTemp, tHum) == [hum] + [temp];
    WithoutIdAppend([hum] + [temp], older, id);
    WithoutIdAppend([hum], [temp], id);
    WithoutIdOne(temp, id);
    WithoutIdOne(hum, id);
    Decimal.IntToStringRoundTrip(tTemp);
    Decimal.IntToStringRoundTrip(tHum);
  }

  // ---------------------------------------------------------------------------------------
  // Telemetry history

  /** `slice(-n)`: the last n entries, or all of them when there are fewer. */
  function KeepLast(s: seq<SensorData>, n: nat): (r: seq<SensorData>)
    ensures |r| == if |s| < n then |s| else n
    ensures r == s[|s| - |r|..]
  {
    if |s| <= n then s else s[|s| - n..]
  }

  /** The history after one telemetry tick: the most recent earlier samples, up to 29 of
      them and all of them when there are fewer, followed by the new sample. */
  function TickHistory(history: seq<SensorData>, sample: SensorData): (r: seq<SensorData>)
    ensures 1 <= |r| <= HistoryKeep + 1 && r[|r| - 1] == sample
    ensures |r| - 1 <= |history| && r[..|r| - 1] == history[|history| - (|r| - 1)..]
    ensures |r| == (if |history| < HistoryKeep then |history| else HistoryKeep) + 1
  {
    KeepLast(history, HistoryKeep) + [sample]
  }

  /** A full history loses exactly its oldest sample on a tick. */
  lemma TickEvictsOldest(history: seq<SensorData>, sample: SensorData)
    requires |history| == HistoryKeep + 1
    ensures TickHistory(history, sample) == history[1..] + [sample]
  {
  }

  /** `latestSensorData`. */
  function Latest(history: seq<SensorData>): (r: Option<SensorData>)
    ensures r.None? <==> history == []
    ensures r.Some? ==> r.value == history[|history| - 1]
  {
    if |history| > 0 then Some(history[|history| - 1]) else None
  }

  lemma LatestAfterTick(history: seq<SensorData>, sample: SensorData)
    ensures Latest(TickHistory(history, sample)) == Some(sample)
  {
  }

  // ---------------------------------------------------------------------------------------
  // On-time check

  /** Elapsed minutes as the code computes them: milliseconds / 1000 / 60. */
  function OnTimeMinutes(since: int, now: int): real {
    ((now - since) as real) / 1000.0 / 60.0
  }

  /** The check that raises a timeout alert: switched on, timestamp present, and on for at
      least twenty minutes, which is at least 1200000 ms. */
  function OnTooLong(on: bool, since: Option<int>, now: int): (b: bool)
    ensures b <==> on && since.Some? && now - since.value >= OnTimeLimitMs
  {
    match since
    case None => false
    case Some(t) =>
      var d := (now - t) as real;
      assert OnTimeMinutes(t, now) == d / 60000.0;
      on && OnTimeMinutes(t, now) >= OnTimeLimitMinutes
  }

  /** Checked once a minute, the desk raises a timeout at every check from minute twenty
      on and at none before. */
  lemma TimeoutEveryCheckFromMinuteTwenty(since: int, k: nat)
    ensures OnTooLong(true, Some(since), since + 60000 * k) <==> k >= 20
  {
  }

  /** `device?.name || null`: a missing or empty name reads as no name. */
  function NameOf(device: Option<Bluetooth.Device>): (r: Option<string>)
    ensures r.Some? <==> device.Some? && device.value.name.Some? && device.value.name.value != ""
    ensures r.Some? ==> r == device.value.name
  {
    match device
    case None => None
    case Some(d) => if d.name.Some? && d.name.value != "" then d.name else None
  }

  // ---------------------------------------------------------------------------------------
  // The provider

  class DeskProvider {
    const service: Bluetooth.BluetoothService
    /** The listener object this provider registers with the service. */
    const listener: Bluetooth.Listener
    var connectionState: Bluetooth.ConnectionState
    var deviceName: Option<string>
    var sensorData: seq<SensorData>
    var deviceState: DeviceState
    var alerts: seq<Alert>

    ghost predicate Valid()
      reads this
    {
      TimestampsMatch(deviceState)
    }

    constructor (service: Bluetooth.BluetoothService, listener: Bluetooth.Listener)
      ensures Valid()
      ensures this.service == service && this.listener == listener
      ensures connectionState == Bluetooth.Disconnected && deviceName == None
      ensures sensorData == [] && deviceState == InitialDeviceState && alerts == []
    {
      this.service := service;
      this.listener := listener;
      connectionState := Bluetooth.Disconnected;
      deviceName := None;
      sensorData := [];
      deviceState := InitialDeviceState;
      alerts := [];
    }

    /** The mount effect: the listener joins the service's registry. */
    method Mount()
      modifies service`listeners
      ensures service.listeners == old(service.listeners) + [listener]
    {
      service.RegisterListener(listener);
    }

    /** The unmount cleanup: the listener leaves the registry. */
    method Unmount()
      modifies service`listeners
      ensures service.listeners == Bluetooth.RemoveFirst(old(service.listeners), listener)
    {
      service.UnregisterListener(listener);
    }

    method AddAlert(kind: AlertKind, message: string, now: int)
      modifies this`alerts
      ensures alerts == [NewAlert(kind, message, now)] + old(alerts)
    {
      alerts := [NewAlert(kind, message, now)] + alerts;
    }

    /** `tTemp` and `tHum` are the clock readings of the two `addAlert` calls. */
    method CheckForAlerts(data: SensorData, tTemp: int, tHum: int)
      modifies this`alerts
      ensures alerts == ThresholdAlerts(data, tTemp, tHum) + old(alerts)
    {
      if data.temperature > TemperatureLimit {
        AddAlert(Temperature, TemperatureMessage(data.temperature), tTemp);
      }
      if data.humidity < HumidityLimit {
        AddAlert(Humidity, HumidityMessage(data.humidity), tHum);
      }
    }

    method ClearAlert(id: string)
      modifies this`alerts
      ensures alerts == WithoutId(old(alerts), id)
    {
      alerts := WithoutId(alerts, id);
    }

    method ClearAllAlerts()
      modifies this`alerts
      ensures alerts == []
    {
      alerts := [];
    }

    /** The listener's state callback, followed by the telemetry effect it triggers: on a
        change to `connected` the first sample is appended (untrimmed) and checked. */
    method OnConnectionStateChange(state: Bluetooth.ConnectionState, device: Option<Bluetooth.Device>,
                                   initial: SensorData, tTemp: int, tHum: int)
      modifies this`connectionState, this`deviceName, this`sensorData, this`alerts
      ensures connectionState == state && deviceName == NameOf(device)
      ensures state == Bluetooth.Connected && old(connectionState) != Bluetooth.Connected ==>
        sensorData == old(sensorData) + [initial] && alerts == ThresholdAlerts(initial, tTemp, tHum) + old(alerts)
      ensures !(state == Bluetooth.Connected && old(connectionState) != Bluetooth.Connected) ==>
        sensorData == old(sensorData) && alerts == old(alerts)
    {
      var changed := state != connectionState;
      connectionState := state;
      deviceName := NameOf(device);
      if changed && state == Bluetooth.Connected {
        sensorData := sensorData + [initial];
        CheckForAlerts(initial, tTemp, tHum);
      }
    }

    /** One tick of the three-second telemetry interval, which runs only while connected. */
    method TelemetryTick(sample: SensorData, tTemp: int, tHum: int)
      requires connectionState == Bluetooth.Connected
      modifies this`sensorData, this`alerts
      ensures sensorData == TickHistory(old(sensorData), sample)
      ensures alerts == ThresholdAlerts(sample, tTemp, tHum) + old(alerts)
    {
      sensorData := KeepLast(sensorData, HistoryKeep) + [sample];
      CheckForAlerts(sample, tTemp, tHum);
    }

    /** One run of the desk's one-minute on-time check (it exists only while the desk is on
        with a timestamp; otherwise nothing happens). */
    method CheckDeskOnTime(now: int)
      modifies this`alerts
      ensures alerts == (if OnTooLong(deviceState.deskOn, deviceState.deskOnTimestamp, now)
                         then [NewAlert(DeskTimeout, DeskTimeoutMessage, now)] else []) + old(alerts)
    {
      if deviceState.deskOn && deviceState.deskOnTimestamp.Some? {
        var onTime := OnTimeMinutes(deviceState.deskOnTimestamp.value, now);
        if onTime >= OnTimeLimitMinutes {
          AddAlert(DeskTimeout, DeskTimeoutMessage, now);
        }
      }
    }

    /** One run of the heater's one-minute on-time check. */
    method CheckHeaterOnTime(now: int)
      modifies this`alerts
      ensures alerts == (if OnTooLong(deviceState.heaterOn, deviceState.heaterOnTimestamp, now)
                         then [NewAlert(HeaterTimeout, HeaterTimeoutMessage, now)] else []) + old(alerts)
    {
      if deviceState.heaterOn && deviceState.heaterOnTimestamp.Some? {
        var onTime := OnTimeMinutes(deviceState.heaterOnTimestamp.value, now);
        if onTime >= OnTimeLimitMinutes {
          AddAlert(HeaterTimeout, HeaterTimeoutMessage, now);
        }
      }
    }

    /** Sends the desk command for the target state; only a successful send updates the
        desk flag and its timestamp. */
    method ToggleDesk(on: Option<bool>, writeOk: bool, now: int)
      requires Valid()
      modifies this`deviceState, service`written
      ensures Valid()
      ensures var target := Target(on, old(deviceState.deskOn));
        var sent := old(service.Ready()) && writeOk;
        deviceState == (if sent then SwitchDesk(old(deviceState), target, now) else old(deviceState))
        && service.written == old(service.written) + (if sent then [Bluetooth.Encode(Bluetooth.DeskPower(target))] else [])
    {
      var newState := Target(on, deviceState.deskOn);
      var outcome := service.SendDeskCommand(newState, writeOk);
      if outcome == Pass {
        deviceState := SwitchDesk(deviceState, newState, now);
      }
    }

    method ToggleHeater(on: Option<bool>, writeOk: bool, now: int)
      requires Valid()
      modifies this`deviceState, service`written
      ensures Valid()
      ensures var target := Target(on, old(deviceState.heaterOn));
        var sent := old(service.Ready()) && writeOk;
        deviceState == (if sent then SwitchHeater(old(deviceState), target, now) else old(deviceState))
        && service.written == old(service.written) + (if sent then [Bluetooth.Encode(Bluetooth.HeaterPower(target))] else [])
    {
      var newState := Target(on, deviceState.heaterOn);
      var outcome := service.SendHeaterCommand(newState, writeOk);
      if outcome == Pass {
        deviceState := SwitchHeater(deviceState, newState, now);
      }
    }

    /** Sends the colour as given (no range check); only a successful send stores it. */
    method SetRGBColor(color: RGBColor, writeOk: bool)
      requires Valid()
      modifies this`deviceState, service`written
      ensures Valid()
      ensures var sent := old(service.Ready()) && writeOk;
        deviceState == (if sent then old(deviceState).(rgbColor := color) else old(deviceState))
        && service.written == old(service.written) + (if sent then [Bluetooth.Encode(Bluetooth.Light(color.r, color.g, color.b))] else [])
    {
      var outcome := service.SendRGBCommand(color.r, color.g, color.b, writeOk);
      if outcome == Pass {
        deviceState := deviceState.(rgbColor := color);
      }
    }

    /** The provider's `connect`: asks the service to connect and swallows its failure. */
    method Connect(radio: Bluetooth.Radio)
      modifies service`device, service`characteristic, service`connectionState, service`deliveries
      ensures old(service.connectionState) == Bluetooth.Connected ==>
        service.connectionState == Bluetooth.Connected && service.device == old(service.device)
        && service.characteristic == old(service.characteristic)
        && service.deliveries == old(service.deliveries)
      ensures old(service.connectionState) != Bluetooth.Connected ==>
        var a := Bluetooth.ConnectAttempt(radio, old(service.device), old(service.characteristic));
        service.connectionState == a.state && service.device == a.device && service.characteristic == a.characteristic
        && service.deliveries == old(service.deliveries) + Bluetooth.Fanout(service.listeners, a.events)
    {
      var _ := service.Connect(radio);
    }

    /** The provider's `disconnect`. */
    method Disconnect()
      modifies service`device, service`characteristic, service`connectionState, service`deliveries
      ensures service.connectionState == Bluetooth.Disconnected && service.device == None
      ensures service.characteristic == None
      ensures service.deliveries == old(service.deliveries)
        + Bluetooth.Broadcast(service.listeners, Bluetooth.StateChange(Bluetooth.Disconnected, None))
    {
      service.Disconnect();
    }
  }
}

=== FILE: desk_controls.dfy ===
/** The device-control card's on-timers: every second, while connected, each switch that
    is on shows how long it has been on as minutes and zero-padded seconds. */
module DeskControls {
  import opened Wrappers
  import Decimal
  import DeskContext

  /** `Math.floor(diff / 60000)`; Dafny's division by a positive divisor is the floor. */
  function Minutes(diff: int): (m: int)
    ensures m * 60000 <= diff < (m + 1) * 60000
  {
    diff / 60000
  }

  /** JavaScript's `%`, whose result takes the sign of the dividend. */
  function JsRemainder(a: int, b: int): (r: int)
    requires b > 0
    ensures a >= 0 ==> r == a % b
    ensures a < 0 ==> -b < r <= 0 && r == a + b * ((-a) / b)
    ensures -b < r < b
  {
    if a >= 0 then a % b else -((-a) % b)
  }

  /** `Math.floor((diff % 60000) / 1000)`. */
  function Seconds(diff: int): (s: int)
    ensures diff >= 0 ==> 0 <= s <= 59
    ensures diff < 0 ==> -60 <= s <= 0
  {
    JsRemainder(diff, 60000) / 1000
  }

  /** For a non-negative difference the seconds lie in 0..59 and, with the minutes, make up
      the whole seconds elapsed. */
  lemma ElapsedParts(diff: int)
    requires diff >= 0
    ensures 0 <= Seconds(diff) <= 59
    ensures Minutes(diff) * 60 + Seconds(diff) == diff / 1000
  {
    var m, rem := diff / 60000, diff % 60000;
    assert diff == m * 60000 + rem;
    assert rem / 1000 <= 59;
    assert (m * 60000 + rem) / 1000 == m * 60 + rem / 1000;
  }

  /** The `m:ss` text: for a non-negative difference the seconds always take exactly the
      two characters after the colon. */
  function FormatElapsed(diff: int): (t: string)
    ensures diff >= 0 ==> |t| >= 4 && t[|t| - 3] == ':'
  {
    var ss := Decimal.PadStart(Decimal.IntToString(Seconds(diff)), 2, '0');
    TwoDigitsAtMost(Seconds(diff));
    Decimal.IntToString(Minutes(diff)) + ":" + ss
  }

  /** A number below one hundred is written with one or two digits. */
  lemma TwoDigitsAtMost(n: int)
    ensures 0 <= n < 100 ==> |Decimal.IntToString(n)| <= 2
  {
    if 10 <= n < 100 {
      assert Decimal.NatToString(n) == Decimal.NatToString(n / 10) + [Decimal.DigitChar(n % 10)];
    }
  }

  /** The seconds of a minute padded to two characters: two digits that read back. */
  lemma PaddedSeconds(sec: nat)
    requires sec <= 59
    ensures var ss := Decimal.PadStart(Decimal.NatToString(sec), 2, '0');
      |ss| == 2 && Decimal.AllDigits(ss) && Decimal.ParseNat(ss) == Some(sec)
  {
    var ss := Decimal.PadStart(Decimal.NatToString(sec), 2, '0');
    TwoDigitsAtMost(sec);
    if sec < 10 {
      assert ss == ['0', Decimal.DigitChar(sec)];
      assert ss[..|ss| - 1] == ['0'] && ['0'][..0] == [];
      assert Decimal.DigitsValue(['0']) == 0;
      assert Decimal.DigitsValue(ss) == sec;
    } else {
      assert ss == Decimal.NatToString(sec);
      Decimal.NatToStringRoundTrip(sec);
    }
  }

  /** The text of a non-negative difference splits at its one `:` into the minutes and
      exactly two digits of seconds, and both read back as the numbers they show. */
  lemma FormatElapsedReadsBack(diff: int)
    requires diff >= 0
    ensures var parts := Decimal.SplitOn(FormatElapsed(diff), ':');
      |parts| == 2 && |parts[1]| == 2
      && Decimal.ParseNat(parts[0]) == Some(Minutes(diff))
      && Decimal.ParseNat(parts[1]) == Some(Seconds(diff))
  {
    var m, sec := Minutes(diff), Seconds(diff);
    var mm := Decimal.NatToString(m);
    var ss := Decimal.PadStart(Decimal.NatToString(sec), 2, '0');
    PaddedSeconds(sec);
    assert FormatElapsed(diff) == mm + [':'] + ss;
    Decimal.DigitsExclude(mm, ':');
    Decimal.DigitsExclude(ss, ':');
    Decimal.SplitAtFirst(mm, ':', ss);
    Decimal.SplitNoSeparator(ss, ':');
    Decimal.NatToStringRoundTrip(m);
  }

  /** A clock that went back shows negative parts: 1.5 s before the timestamp reads "-1:-2". */
  lemma NegativeElapsed()
    ensures FormatElapsed(-1500) == "-1:-2"
  {
    assert Minutes(-1500) == -1;
    assert Seconds(-1500) == -2;
    assert Decimal.NatToString(1) == "1" && Decimal.NatToString(2) == "2";
  }

  /** One switch's timer text: shown only while the switch is on with a timestamp. */
  function TimerText(on: bool, since: Option<int>, now: int): (t: Option<string>)
    ensures t.Some? <==> on && since.Some?
    ensures t.Some? ==> t.value == FormatElapsed(now - since.value)
  {
    if on && since.Some? then Some(FormatElapsed(now - since.value)) else None
  }

  /** The card's timer state. */
  class DeskTimers {
    var deskTimer: Option<string>
    var heaterTimer: Option<string>

    constructor ()
      ensures deskTimer == None && heaterTimer == None
    {
      deskTimer := None;
      heaterTimer := None;
    }

    /** One tick of the one-second interval, which runs only while connected. Each timer
        depends only on its own switch. */
    method Refresh(isConnected: bool, ds: DeskContext.DeviceState, now: int)
      modifies this
      ensures isConnected ==>
        deskTimer == TimerText(ds.deskOn, ds.deskOnTimestamp, now)
        && heaterTimer == TimerText(ds.heaterOn, ds.heaterOnTimestamp, now)
      ensures !isConnected ==> deskTimer == old(deskTimer) && heaterTimer == old(heaterTimer)
    {
      if isConnected {
        if ds.deskOn && ds.deskOnTimestamp.Some? {
          deskTimer := Some(FormatElapsed(now - ds.deskOnTimestamp.value));
        } else {
          deskTimer := None;
        }
        assert deskTimer == TimerText(ds.deskOn, ds.deskOnTimestamp, now);
        if ds.heaterOn && ds.heaterOnTimestamp.Some? {
          heaterTimer := Some(FormatElapsed(now - ds.heaterOnTimestamp.value));
        } else {
          heaterTimer := None;
        }
      }
    }
  }
}

=== FILE: rgb_controller.dfy ===
/** The mood-light card: a local copy of the colour that follows the device state, three
    sliders that each replace one channel, the preview text, and the colours handed on to
    the coordinator's (debounced) setter. */
module RGBController {
  import opened Wrappers
  import Decimal
  import Bluetooth
  import DeskContext

  datatype Channel = R | G | B

  function Get(c: DeskContext.RGBColor, ch: Channel): int {
    match ch
    case R => c.r
    case G => c.g
    case B => c.b
  }

  /** `{ ...localRGB, [color]: value[0] }`: the named channel takes the slider's first
      value and the other two are kept. */
  function WithChannel(c: DeskContext.RGBColor, ch: Channel, value: seq<int>): (r: DeskContext.RGBColor)
    requires |value| >= 1
    ensures Get(r, ch) == value[0]
    ensures forall other :: other != ch ==> Get(r, other) == Get(c, other)
  {
    match ch
    case R => c.(r := value[0])
    case G => c.(g := value[0])
    case B => c.(b := value[0])
  }

  /** The sliders' configuration. */
  const SliderMin := 0
  const SliderMax := 255
  const SliderStep := 1

  predicate SliderValue(v: int) {
    SliderMin <= v <= SliderMax && (v - SliderMin) % SliderStep == 0
  }

  predicate InRange(c: DeskContext.RGBColor) {
    SliderValue(c.r) && SliderValue(c.g) && SliderValue(c.b)
  }

  /** A slider can only produce a channel value in 0..255, so moving one keeps an in-range
      colour in range; the coordinator itself never clamps. */
  lemma SliderKeepsColorInRange(c: DeskContext.RGBColor, ch: Channel, v: int)
    requires InRange(c) && SliderValue(v)
    ensures InRange(WithChannel(c, ch, [v]))
  {
    var r := WithChannel(c, ch, [v]);
    assert forall x :: x in {R, G, B} ==> SliderValue(Get(r, x));
    assert SliderValue(Get(r, R)) && SliderValue(Get(r, G)) && SliderValue(Get(r, B));
  }

  /** The CSS colour of the preview box. */
  function PreviewString(c: DeskContext.RGBColor): (s: string)
    ensures |s| >= 11 && s[..4] == "rgb(" && s[|s| - 1] == ')'
  {
    "rgb(" + (Decimal.IntToString(c.r) + ", " + (Decimal.IntToString(c.g) + ", " + Decimal.IntToString(c.b))) + ")"
  }

  /** Reads a preview text back into a colour. */
  function DecodePreview(s: string): Option<DeskContext.RGBColor> {
    if |s| < 5 || s[..4] != "rgb(" || s[|s| - 1] != ')' then None
    else
      var fields := Decimal.SplitOn(s[4..|s| - 1], ',');
      if |fields| != 3 || |fields[1]| < 1 || fields[1][0] != ' ' || |fields[2]| < 1 || fields[2][0] != ' ' then None
      else
        match (Decimal.ParseInt(fields[0]), Decimal.ParseInt(fields[1][1..]), Decimal.ParseInt(fields[2][1..]))
        case (Some(r), Some(g), Some(b)) => Some(DeskContext.RGBColor(r, g, b))
        case _ => None
  }

  /** A ", " separator is a comma followed by a space that belongs to the next piece. */
  lemma CommaSpace(a: string, x: string)
    ensures a + ", " + x == a + [','] + (" " + x)
    ensures " " + (a + ", " + x) == (" " + a) + [','] + (" " + x)
  {
    assert ", " == [','] + " ";
  }

  /** The text between the parentheses splits at its two commas into the three channels,
      the last two with their leading space. */
  lemma PreviewFields(rs: string, gs: string, bs: string)
    requires ',' !in rs && ',' !in gs && ',' !in bs
    ensures Decimal.SplitOn(rs + ", " + (gs + ", " + bs), ',') == [rs, " " + gs, " " + bs]
  {
    var g1, b1 := " " + gs, " " + bs;
    assert ',' !in g1 && ',' !in b1;
    var tail := g1 + [','] + b1;
    assert rs + ", " + (gs + ", " + bs) == rs + [','] + tail by {
      CommaSpace(rs, gs + ", " + bs);
      CommaSpace(gs, bs);
    }
    Decimal.SplitAtFirst(g1, ',', b1);
    Decimal.SplitNoSeparator(b1, ',');
    assert Decimal.SplitOn(tail, ',') == [g1, b1];
    Decimal.SplitAtFirst(rs, ',', tail);
  }

  /** A preview text whose channel texts read back is read as that colour. */
  lemma DecodePreviewOf(inner: string, c: DeskContext.RGBColor)
    requires Decimal.SplitOn(inner, ',')
      == [Decimal.IntToString(c.r), " " + Decimal.IntToString(c.g), " " + Decimal.IntToString(c.b)]
    requires Decimal.ParseInt(Decimal.IntToString(c.r)) == Some(c.r)
    requires Decimal.ParseInt(Decimal.IntToString(c.g)) == Some(c.g)
    requires Decimal.ParseInt(Decimal.IntToString(c.b)) == Some(c.b)
    ensures DecodePreview("rgb(" + inner + ")") == Some(c)
  {
    var s := "rgb(" + inner + ")";
    assert s[..4] == "rgb(" && s[|s| - 1] == ')' && s[4..|s| - 1] == inner;
    var fields := Decimal.SplitOn(inner, ',');
    assert fields[1][1..] == Decimal.IntToString(c.g) && fields[2][1..] == Decimal.IntToString(c.b);
  }

  lemma PreviewRoundTrip(c: DeskContext.RGBColor)
    ensures DecodePreview(PreviewString(c)) == Some(c)
  {
    var rs, gs, bs := Decimal.IntToString(c.r), Decimal.IntToString(c.g), Decimal.IntToString(c.b);
    var inner := rs + ", " + (gs + ", " + bs);
    Decimal.IntToStringExcludes(c.r, ',');
    Decimal.IntToStringExcludes(c.g, ',');
    Decimal.IntToStringExcludes(c.b, ',');
    PreviewFields(rs, gs, bs);
    Decimal.IntToStringRoundTrip(c.r);
    Decimal.IntToStringRoundTrip(c.g);
    Decimal.IntToStringRoundTrip(c.b);
    DecodePreviewOf(inner, c);
  }

  /** The preview separates the channels with ", " while the wire command has no space. */
  lemma PreviewDiffersFromWire(c: DeskContext.RGBColor)
    ensures ' ' in PreviewString(c)
    ensures ' ' !in Bluetooth.Encode(Bluetooth.Light(c.r, c.g, c.b))
  {
    var s := PreviewString(c);
    var rs := Decimal.IntToString(c.r);
    assert s[4 + |rs| + 1] == ' ';
  }

  /** The card's local state: the colour shown, and every colour handed to the setter. */
  class RGBPanel {
    var localRGB: DeskContext.RGBColor
    var requested: seq<DeskContext.RGBColor>

    constructor (deviceColor: DeskContext.RGBColor)
      ensures localRGB == deviceColor && requested == []
    {
      localRGB := deviceColor;
      requested := [];
    }

    /** The effect on the device colour: the local copy is replaced by it. */
    method SyncFromDevice(deviceColor: DeskContext.RGBColor)
      modifies this`localRGB
      ensures localRGB == deviceColor
    {
      localRGB := deviceColor;
    }

    /** A slider moved: the local colour changes in that one channel, and the whole new
        colour is handed to the setter. */
    method HandleColorChange(ch: Channel, value: seq<int>)
      requires |value| >= 1
      modifies this
      ensures localRGB == WithChannel(old(localRGB), ch, value)
      ensures requested == old(requested) + [localRGB]
    {
      var newColor := WithChannel(localRGB, ch, value);
      localRGB := newColor;
      requested := requested + [newColor];
    }
  }
}

=== FILE: temperature_humidity_card.dfy ===
/** The sensor card's helpers: colour bands for the latest reading, the chart rows built
    from the history, the time-axis label, when the chart is drawn and its value range.
    Readings are in tenths, as in the coordinator. */
module TemperatureHumidityCard {
  import opened Wrappers
  import Decimal
  import DeskContext

  const Red := "text-desk-red"
  const Orange := "text-desk-orange"
  const Yellow := "text-desk-yellow"
  const Green := "text-desk-green"
  const Muted := "text-muted-foreground"

  /** Temperature bands: 35 °C and above red, from 30 orange, from 25 yellow, else green. */
  function TemperatureColor(tenths: int): (c: string)
    ensures c == Red <==> tenths >= 350
    ensures c == Orange <==> 300 <= tenths < 350
    ensures c == Yellow <==> 250 <= tenths < 300
    ensures c == Green <==> tenths < 250
  {
    if tenths >= 350 then Red
    else if tenths >= 300 then Orange
    else if tenths >= 250 then Yellow
    else Green
  }

  /** Humidity bands: below 30 %RH red, below 40 orange, above 70 yellow, else green. */
  function HumidityColor(tenths: int): (c: string)
    ensures c == Red <==> tenths < 300
    ensures c == Orange <==> 300 <= tenths < 400
    ensures c == Yellow <==> tenths > 700
    ensures c == Green <==> 400 <= tenths <= 700
  {
    if tenths < 300 then Red
    else if tenths < 400 then Orange
    else if tenths > 700 then Yellow
    else Green
  }

  /** How hot a temperature colour reads, green lowest. */
  function Warmth(c: string): nat {
    if c == Red then 3 else if c == Orange then 2 else if c == Yellow then 1 else 0
  }

  /** A warmer reading never gets a cooler colour. */
  lemma TemperatureColorMonotone(t1: int, t2: int)
    requires t1 <= t2
    ensures Warmth(TemperatureColor(t1)) <= Warmth(TemperatureColor(t2))
  {
  }

  /** The thermometer and droplet icons: the band of the latest reading, muted without one. */
  function ReadingColors(latest: Option<DeskContext.SensorData>): (r: (string, string))
    ensures latest.None? ==> r == (Muted, Muted)
    ensures latest.Some? ==> r.0 != Muted && r.1 != Muted
    ensures latest.Some? ==>
      r == (TemperatureColor(latest.value.temperature), HumidityColor(latest.value.humidity))
  {
    match latest
    case None => (Muted, Muted)
    case Some(d) => (TemperatureColor(d.temperature), HumidityColor(d.humidity))
  }

  /** The temperature figure: one decimal and "°C", or "No data"; the figure reads back as
      the reading it shows. */
  function TemperatureText(latest: Option<DeskContext.SensorData>): (t: string)
    ensures latest.None? ==> t == "No data"
    ensures latest.Some? ==>
      |t| >= 2 && t[|t| - 2..] == "°C" && Decimal.ParseFixed1(t[..|t| - 2]) == Some(latest.value.temperature)
  {
    match latest
    case None => "No data"
    case Some(d) =>
      Decimal.Fixed1RoundTrip(d.temperature);
      var t := Decimal.Fixed1(d.temperature) + "°C";
      assert t[..|t| - 2] == Decimal.Fixed1(d.temperature);
      t
  }

  /** The humidity figure: one decimal and "%", or "No data". */
  function HumidityText(latest: Option<DeskContext.SensorData>): (t: string)
    ensures latest.None? ==> t == "No data"
    ensures latest.Some? ==>
      |t| >= 1 && t[|t| - 1] == '%' && Decimal.ParseFixed1(t[..|t| - 1]) == Some(latest.value.humidity)
  {
    match latest
    case None => "No data"
    case Some(d) =>
      Decimal.Fixed1RoundTrip(d.humidity);
      var t := Decimal.Fixed1(d.humidity) + "%";
      assert t[..|t| - 1] == Decimal.Fixed1(d.humidity);
      t
  }

  datatype ChartPoint = ChartPoint(time: string, temperature: int, humidity: int)

  /** `formatChartData`: one row per sample, in order, with its readings copied and its
      time rendered by the locale's time format (an input here). */
  function FormatChartData(data: seq<DeskContext.SensorData>, timeLabel: int -> string): (rows: seq<ChartPoint>)
    ensures |rows| == |data|
    ensures forall k :: 0 <= k < |data| ==>
      rows[k].temperature == data[k].temperature && rows[k].humidity == data[k].humidity
      && rows[k].time == timeLabel(data[k].timestamp)
    decreases |data|
  {
    if data == [] then []
    else [ChartPoint(timeLabel(data[0].timestamp), data[0].temperature, data[0].humidity)]
         + FormatChartData(data[1..], timeLabel)
  }

  /** The X-axis label: the first two `:`-separated fields joined by `:`; a label without
      a `:` has no second field, which JavaScript renders as "undefined". A time text with
      a `:` is only ever cut short: the label is how it begins. */
  function TickFormatter(value: string): (t: string)
    ensures ':' in value ==> |t| <= |value| && t == value[..|t|]
  {
    var parts := Decimal.SplitOn(value, ':');
    Decimal.SplitFirstTwoPrefix(value, ':');
    parts[0] + ":" + (if |parts| >= 2 then parts[1] else "undefined")
  }

  /** A label of three or more fields, such as "h:m:s", keeps the first two and drops the
      rest, whatever it holds. */
  lemma TickFormatterDropsSeconds(h: string, m: string, rest: string)
    requires ':' !in h && ':' !in m
    ensures TickFormatter(h + ":" + m + ":" + rest) == h + ":" + m
  {
    assert h + ":" + m + ":" + rest == h + [':'] + (m + [':'] + rest);
    Decimal.SplitAtFirst(h, ':', m + [':'] + rest);
    Decimal.SplitAtFirst(m, ':', rest);
  }

  /** A label of exactly two fields is kept as it is. */
  lemma TickFormatterTwoFields(h: string, m: string)
    requires ':' !in h && ':' !in m
    ensures TickFormatter(h + ":" + m) == h + ":" + m
  {
    assert h + ":" + m == h + [':'] + m;
    Decimal.SplitAtFirst(h, ':', m);
    Decimal.SplitNoSeparator(m, ':');
  }

  lemma TickFormatterWithoutColon(value: string)
    requires ':' !in value
    ensures TickFormatter(value) == value + ":undefined"
  {
    Decimal.SplitNoSeparator(value, ':');
  }

  datatype ChartArea = Chart(rows: seq<ChartPoint>) | Hint(text: string)

  function HintText(isConnected: bool): string {
    if isConnected then "Waiting for data..." else "Connect to your device to see sensor data"
  }

  /** The chart is drawn exactly when connected with a non-empty history; otherwise the
      hint depends only on whether the device is connected. */
  function ChartAreaFor(isConnected: bool, data: seq<DeskContext.SensorData>, timeLabel: int -> string): (a: ChartArea)
    ensures a.Chart? <==> isConnected && |data| > 0
    ensures a.Chart? ==> |a.rows| == |data|
    ensures a.Hint? ==> a.text == HintText(isConnected)
  {
    if isConnected && |data| > 0 then Chart(FormatChartData(data, timeLabel)) else Hint(HintText(isConnected))
  }

  datatype View = TemperatureView | HumidityView

  /** The Y-axis range of each view. */
  function YDomain(view: View): (d: (int, int))
    ensures d.0 < d.1
    ensures view == TemperatureView ==> d == (15, 40)
    ensures view == HumidityView ==> d == (20, 80)
  {
    if view == TemperatureView then (15, 40) else (20, 80)
  }
}

=== FILE: wrappers.dfy ===
/** Option and Outcome: a value that may be absent, and the pass/fail result of an
    operation that rejects with an error (a rejected promise or a thrown error). */
module Wrappers {

  datatype Option<+T> = None | Some(value: T) {
    function GetOr(default: T): T {
      match this
      case Some(v) => v
      case None => default
    }
  }

  datatype Outcome<+E> = Pass | Fail(error: E)
}
